=== FILE: README.md ===
# LP3 market maker — fill walk, reconciliation and order application

This project models the core of the LP3 liquidity-provider service:

- **The fill walk** (`Lp3Service.HandleTrade` / `HandleVolume`). Each trade gets a sign: sells are negative and buys positive. The signed volume is then walked over a ladder of price levels:
  - selling pressure hits the level with the lowest ask;
  - buying pressure hits the level with the highest bid.
  A level whose remaining capacity is used up is fully executed. Its reference ratchets to the price it was hit at, it is re-armed with a full rung, and the remainder goes back into the loop. Otherwise it takes a partial fill. Every step moves the service-wide inventory counters by the same amounts as the hit level's own counters.
- **The coordinator** (`StartAsync`, `HandleTimerAsync`, `HandleTradesAsync`, `ApplyOrdersAsync`, `ClearDeletedDependentPairs`, `GetOrders`). This is a small state machine over the started flag and a dictionary from asset-pair id to order list. Each reconciliation:
  - sets the base pair's entry to the ladder's orders united with the additional orders;
  - sets each dependent pair's entry to the element-wise conversion of the base list;
  - sets every other key to the empty list, including the base pair itself unless it is also listed as a dependent pair (modelled as the code does it);
  - hands every entry to the exchange, continuing after failures.
- **The exchange** (`LykkeExchange.ApplyAsync`). This is a state transformer over `_orders`, the last list applied. That field is shared by all pairs. A call:
  - does nothing when the new list equals `_orders` under the orders comparer;
  - otherwise sends one cancel-and-replace request and annotates each order with its status;
  - stores the list as the new `_orders` only when the whole call succeeds.

Numbers: C# `decimal` amounts are integers scaled by 10^28, so arithmetic is exact (product rounding is left out, see below). `Math.Round` is banker's rounding of that scaled value. The opposite inventory is in volume × price units.

Collaborators whose code is not part of this model are parameters of the model:
- the levels service's order list, the additional-volume service and the orders converter;
- the settings lookups and the stored initial price;
- the matching-engine client, the wallet id and the fresh GUIDs.

The `Level` class is not part of this model. Its ask and bid are taken to be `reference ± delta`, and `UpdateReference` moves only the reference.

Three consequences of the code are worth stating:

- **A single level absorbs any volume.** After a ratchet the same level can be chosen again, so there is no "no further level" failure. See `FillWalk.OversizedSellOnOneLevel`.
- **A sell lowers inventory.** Line 163 of `Lp3Service.cs` adds the negative `VolumeSell`, so after sells of 3 and 2 against one level the inventory is `-5`. See `FillWalk.TwoSellsRatchetOnce`.
- **A base pair listed as its own dependent.** The dependent loop re-reads the base entry on every row. Once a row naming the base pair has converted it, every later row converts an already converted list. See `Lp3Service.BaseListedFirstConvertsTwice`.

Modules: `Common` (options, distinctness, LINQ `Union`), `FixedPoint` (decimal rounding), `Domain` (trades and limit orders), `Levels`, `FillWalk`, `PairTable` (the insertion-ordered dictionary), `LykkeExchange`, `Lp3Service`.

## Model

| member | source | states |
|---|---|---|
| Levels.LowestSell | src/Lykke.Service.LP3.DomainServices/Lp3Service.cs:157 | the chosen level has an ask no higher than any other level's, and every earlier level's ask is strictly higher (stable sort: ties go to the first level) |
| Levels.HighestBuy | src/Lykke.Service.LP3.DomainServices/Lp3Service.cs:191 | the chosen level has a bid no lower than any other level's, and every earlier level's bid is strictly lower |
| Levels.SeedAllKeepsTotals | src/Lykke.Service.LP3.DomainServices/Lp3Service.cs:78 | seeding leaves the summed level inventory and opposite inventory unchanged |
| Levels.SeedAll | src/Lykke.Service.LP3.DomainServices/Lp3Service.cs:78 | seeding centres every level's ask and bid on the price, keeps names, deltas, rung sizes, capacities and inventories, and preserves the capacity invariant |
| Levels.TotalUpdate | src/Lykke.Service.LP3.DomainServices/Lp3Service.cs:166-167 | replacing one level changes a sum over the ladder by exactly that level's difference |
| FillWalk.HandleVolume | src/Lykke.Service.LP3.DomainServices/Lp3Service.cs:153-222 | one step keeps the rungs, conserves `inventory + volume`, leaves everything unchanged for a zero volume, and changes only the targeted level, whose counters move by the same amounts as the global ones |
| FillWalk.SellStep | src/Lykke.Service.LP3.DomainServices/Lp3Service.cs:155-187 | selling pressure on a valid ladder keeps the capacity bounds and returns a remainder in `(volume, 0]`. Full execution absorbs exactly the capacity, ratchets the reference to the hit ask (the next ask is one delta higher) and re-arms to `-originalVolume`. A partial fill returns 0, moves capacity strictly toward zero by the volume and leaves the bid capacity alone. Both cases change inventory by the executed (negative) volume and the opposite inventory by minus that volume times the hit ask |
| FillWalk.BuyStep | src/Lykke.Service.LP3.DomainServices/Lp3Service.cs:189-219 | the mirror image for buying pressure: a remainder in `[0, volume)`, a ratchet to the hit bid with re-arm to `+originalVolume`, and a partial fill that shrinks capacity toward zero and leaves the ask capacity alone. Both cases change inventory by the executed (positive) volume and the opposite inventory by minus that volume times the hit bid |
| FillWalk.StepShrinks | src/Lykke.Service.LP3.DomainServices/Lp3Service.cs:159-171 | on a valid ladder each step keeps the invariant and returns a remainder of the same sign and strictly smaller magnitude, which is the loop's termination measure |
| FillWalk.StepKeepsGaps | src/Lykke.Service.LP3.DomainServices/Lp3Service.cs:163-212 | global inventory minus the sum of level inventories is invariant under a step, and likewise for the opposite inventories |
| FillWalk.Walk | src/Lykke.Service.LP3.DomainServices/Lp3Service.cs:145-148 | walking any volume to zero on a valid ladder terminates. Global inventory grows by exactly the signed volume, the rungs and the capacity invariant are kept, and the global-versus-levels gaps are unchanged |
| FillWalk.SignedVolume | src/Lykke.Service.LP3.DomainServices/Lp3Service.cs:138-143 | the walked volume has the trade's size, and for a positive trade volume it is negative exactly for a sell |
| FillWalk.TradeWalk | src/Lykke.Service.LP3.DomainServices/Lp3Service.cs:132-148 | one trade leaves a ladder with no levels alone. Otherwise inventory moves by the signed volume, the rungs and capacity invariant are kept, and the gaps are unchanged |
| FillWalk.BatchVolumeCons | src/Lykke.Service.LP3.DomainServices/Lp3Service.cs:94-97 | a batch's signed volume is its first trade's plus the rest's, so a batch processed front to back moves inventory by its total |
| FillWalk.BatchWalk | src/Lykke.Service.LP3.DomainServices/Lp3Service.cs:94-97 | the trades walked in order: a non-empty valid ladder absorbs the whole batch's signed volume, a ladder without levels is untouched, and the invariant, rungs and gaps are kept |
| FillWalk.HandleTrade | src/Lykke.Service.LP3.DomainServices/Lp3Service.cs:128-151 | with no levels a trade changes nothing. Otherwise a sell lowers inventory by its volume and a buy raises it, and the loop result is the walk of the signed volume (`TradeWalk`). The invariants and gaps hold afterwards |
| FillWalk.ZeroRungStalls | src/Lykke.Service.LP3.DomainServices/Lp3Service.cs:170 | a level with rung size 0 is re-armed with zero capacity and hands the whole volume back, so the loop cannot progress without the positive-rung precondition |
| FillWalk.OversizedSellOnOneLevel | src/Lykke.Service.LP3.DomainServices/Lp3Service.cs:145-171 | a sell of 8 against one level of size 5 at 100±10 executes 5 at 110, ratchets, and takes the other 3 at 120; inventory ends at -8 and nothing is left unplaced |
| FillWalk.TwoSellsRatchetOnce | src/Lykke.Service.LP3.DomainServices/Lp3Service.cs:159-182 | sells of 3 then 2 on that level: a partial fill to -2, then one full execution ratcheting to 110, with inventory -5 |
| PairTable.Find | src/Lykke.Service.LP3.DomainServices/Lp3Service.cs:125 | a lookup finds a value exactly when the key is present, and then it is the value stored at that key's position |
| PairTable.Put | src/Lykke.Service.LP3.DomainServices/Lp3Service.cs:268 | the indexer assignment keeps keys unique, adds the key, makes it read back the new value, leaves every other key's value alone, and keeps existing entries in place |
| Common.Union | src/Lykke.Service.LP3.DomainServices/Lp3Service.cs:262 | the union is the first-occurrence deduplication of the concatenation: duplicate-free, exactly the elements of either list, and ordered by where each element first appears in `a + b` |
| Common.AppendNewIsDedup | src/Lykke.Service.LP3.DomainServices/Lp3Service.cs:262 | adding each element not yet present, front to back, yields the first-occurrence deduplication |
| Common.DedupOrdered | src/Lykke.Service.LP3.DomainServices/Lp3Service.cs:262 | the deduplication holds exactly the input's elements, and its elements appear in order of their first occurrence in the input |
| Common.UnionKeepsFirstList | src/Lykke.Service.LP3.DomainServices/Lp3Service.cs:262 | a duplicate-free first list comes out of the union unchanged as its prefix, so level orders keep their order ahead of the additional orders |
| Lp3Service.BaseDesired | src/Lykke.Service.LP3.DomainServices/Lp3Service.cs:251-263 | the base list is empty once the base settings are gone. Otherwise it is duplicate-free, holds exactly the level orders and the additional orders, and keeps duplicate-free level orders first, in their order |
| Lp3Service.ConvertDependents | src/Lykke.Service.LP3.DomainServices/Lp3Service.cs:265-270 | the conversion loop adds exactly the dependent pair ids as keys and leaves every other key's list unchanged |
| Lp3Service.ConvertDependentsLast | src/Lykke.Service.LP3.DomainServices/Lp3Service.cs:266-269 | when the base pair is not a dependent, the entry of the last settings row naming a pair is the element-wise conversion of the base list with that row's settings |
| Lp3Service.BaseAfterUnlisted | src/Lykke.Service.LP3.DomainServices/Lp3Service.cs:266-269 | when no settings row names the base pair, the conversion loop never replaces the base list |
| Lp3Service.BaseAfter | src/Lykke.Service.LP3.DomainServices/Lp3Service.cs:266-269 | the base entry as the dependent loop leaves it: it is the base list itself when no row names the base pair |
| Lp3Service.ConvertDependentsBase | src/Lykke.Service.LP3.DomainServices/Lp3Service.cs:266-269 | for any settings list, the base entry after the loop is the base list converted once per row that names the base pair |
| Lp3Service.ConvertDependentsChained | src/Lykke.Service.LP3.DomainServices/Lp3Service.cs:266-269 | for any settings list, the last row naming a pair gives it that row's conversion of the base entry as the earlier rows left it |
| Lp3Service.ConvertFromEmpty | src/Lykke.Service.LP3.DomainServices/Lp3Service.cs:254-269 | converting from an empty base list leaves the base and every dependent pair empty |
| Lp3Service.ClearDeletedDependentPairs | src/Lykke.Service.LP3.DomainServices/Lp3Service.cs:297-307 | keeps the key set. Every present key that is not a configured dependent pair now reads empty, and every other lookup is unchanged |
| Lp3Service.Desired | src/Lykke.Service.LP3.DomainServices/Lp3Service.cs:251-272 | the dictionary handed to the exchange has unique keys: the old keys, the base pair and every dependent pair |
| Lp3Service.ApplyAll | src/Lykke.Service.LP3.DomainServices/Lp3Service.cs:274-284 | the exchange is called once per entry, in dictionary order, whatever earlier calls did. Keys stay in place, and an exchange that only annotates leaves each list equal under the comparer |
| Lp3Service.Reconcile | src/Lykke.Service.LP3.DomainServices/Lp3Service.cs:247-290 | reconciliation never touches levels, inventories, the initial price or the base id. Without a base id nothing happens; with one, the service stays started exactly when it was started and the base settings still exist |
| Lp3Service.ReconcileOnBaseDeletion | src/Lykke.Service.LP3.DomainServices/Lp3Service.cs:251-256 | when the base settings are gone the service stops, the base pair is applied, and every pair is applied with an empty list |
| Lp3Service.ReconcileClearsUnlisted | src/Lykke.Service.LP3.DomainServices/Lp3Service.cs:297-307 | every applied pair that is not a configured dependent pair is applied empty, and so is the base pair unless it is listed as dependent |
| Lp3Service.ReconcileConvertsDependents | src/Lykke.Service.LP3.DomainServices/Lp3Service.cs:262-270 | provided the base pair is not itself listed as a dependent, each dependent pair is applied with the conversion of the base list (level orders united with additional orders), using the last settings row for that pair |
| Lp3Service.ReconcileConvertsChained | src/Lykke.Service.LP3.DomainServices/Lp3Service.cs:262-270 | with no restriction on the settings, each dependent pair is applied with its last row's conversion of the base list as the earlier rows left it |
| Lp3Service.ReconcileBaseListedAsDependent | src/Lykke.Service.LP3.DomainServices/Lp3Service.cs:262-272 | a base pair listed among its own dependents is not cleared. It is applied with the base list converted once per row naming it |
| Lp3Service.BaseListedFirstConvertsTwice | src/Lykke.Service.LP3.DomainServices/Lp3Service.cs:266-269 | with the base pair listed first and one other pair second, that pair receives the base list converted twice, first with the base row's settings |
| Lp3Service.ReconcileAttemptsEveryPair | src/Lykke.Service.LP3.DomainServices/Lp3Service.cs:274-284 | every key (old keys, base, dependents) is applied exactly once whatever the exchange does, and the stored dictionary keeps the same keys in the same order |
| Lp3Service.GetOrders | src/Lykke.Service.LP3.DomainServices/Lp3Service.cs:123-126 | an unknown pair reads empty, a known pair reads its stored list, and a non-empty answer means the pair is known |
| Lp3Service.RemovedPairReadsEmpty | src/Lykke.Service.LP3.DomainServices/Lp3Service.cs:123-126 | with an exchange that only annotates, a pair that is not a configured dependent pair reads back empty after reconciliation |
| Lp3Service.Start | src/Lykke.Service.LP3.DomainServices/Lp3Service.cs:62-83 | without an initial price nothing happens. With one, the base pair id is re-read from the settings. The service only becomes started when both are present; fills, per-level inventories and opposite inventories, rungs, the inventory and opposite-inventory gaps and the capacity invariant are untouched, and nothing is applied without a base pair id |
| Lp3Service.Timer | src/Lykke.Service.LP3.DomainServices/Lp3Service.cs:103-116 | a tick keeps the dictionary well formed and never touches book or per-level inventories and opposite inventories, rungs, the two gaps, the capacity invariant or the initial price. A running service with a base pair id still has base settings |
| Lp3Service.TimerColdStart | src/Lykke.Service.LP3.DomainServices/Lp3Service.cs:62-83 | while stopped, the timer starts the service exactly when both an initial price and a base pair id exist. Otherwise nothing is applied and the ladder, dictionary and exchange are untouched. On start every level is centred on the initial price and the tick is exactly a reconciliation of the seeded, started state |
| Lp3Service.TimerWhenStarted | src/Lykke.Service.LP3.DomainServices/Lp3Service.cs:103-116 | once started, the timer tick is a reconciliation |
| Lp3Service.HandleTrades | src/Lykke.Service.LP3.DomainServices/Lp3Service.cs:85-101 | an empty batch fails before any change. Otherwise the result is exactly a reconciliation of the state with the last trade's price as initial price and the batch walked through the ladder (`BatchWalk`). Inventory moves by the batch's signed total (unless there are no levels), the ladder invariant and gaps are kept, and without a base id nothing is applied |
| Lp3Service.LykkeApply | src/Lykke.Service.LP3.DomainServices/Lp3Service.cs:278 | the Lykke exchange as the coordinator's call: every call hands back the orders equal under the comparer, a throw leaves `_orders` alone, and otherwise `_orders` is unchanged or becomes the annotated list |
| Lp3Service.LykkeApplyAnnotates | src/Lykke.Service.LP3.DomainServices/Exchanges/LykkeExchange.cs:101-114 | the Lykke exchange changes only annotations, so with it a removed pair reads back empty after reconciliation |
| FixedPoint.RoundToEven | src/Lykke.Service.LP3.DomainServices/Exchanges/LykkeExchange.cs:59-60 | the result is a multiple of the unit and the nearest such multiple; ties go to the even multiple, multiples are kept, and signs are preserved |
| FixedPoint.Round | src/Lykke.Service.LP3.DomainServices/Exchanges/LykkeExchange.cs:59-60 | rounding to a number of decimals gives the nearest value with that many decimals (ties to even), and rounding to full precision is the identity |
| LykkeExchange.BuildItems | src/Lykke.Service.LP3.DomainServices/Exchanges/LykkeExchange.cs:53-66 | one item per order, in order, with the order's side, its rounded price and its rounded unsigned volume, which is never negative |
| LykkeExchange.IdMap | src/Lykke.Service.LP3.DomainServices/Exchanges/LykkeExchange.cs:49-66 | the map's keys are exactly the item ids, and it only names ids of the orders |
| LykkeExchange.IdMapFaithful | src/Lykke.Service.LP3.DomainServices/Exchanges/LykkeExchange.cs:53-66 | with distinct item ids each item's id maps to its own order's id |
| LykkeExchange.IdMapInjective | src/Lykke.Service.LP3.DomainServices/Exchanges/LykkeExchange.cs:49-66 | with distinct item and order ids no two items map to the same order |
| LykkeExchange.ErrorMessage | src/Lykke.Service.LP3.DomainServices/Exchanges/LykkeExchange.cs:107-110 | a known error keeps the engine's reason. An unknown error keeps a non-empty reason and otherwise gets exactly "Unknown error" |
| LykkeExchange.Mark | src/Lykke.Service.LP3.DomainServices/Exchanges/LykkeExchange.cs:105-110 | annotating changes no quote and no id |
| LykkeExchange.Annotate | src/Lykke.Service.LP3.DomainServices/Exchanges/LykkeExchange.cs:101-112 | the status loop, finished or aborted, changes no quote and no id |
| LykkeExchange.OneStatus | src/Lykke.Service.LP3.DomainServices/Exchanges/LykkeExchange.cs:101-111 | an unmapped status is ignored, a mapped id not held by exactly one order aborts, and otherwise only that order gets the status's error and message |
| LykkeExchange.CountDistinct | src/Lykke.Service.LP3.DomainServices/Exchanges/LykkeExchange.cs:105 | with distinct order ids, `Single` finds exactly one order for any id present |
| LykkeExchange.DistinctIdsAnnotate | src/Lykke.Service.LP3.DomainServices/Exchanges/LykkeExchange.cs:101-112 | with distinct order ids and a map into them, the status loop never aborts |
| LykkeExchange.ApplyAsync | src/Lykke.Service.LP3.DomainServices/Exchanges/LykkeExchange.cs:36-115 | skips exactly when `_orders` exists and equals the input under the comparer. Any outcome but a placement (skip, missing wallet, bad accuracy, engine throw, null response, failed `Single`) leaves `_orders` as it was, and a placement stores the annotated list. Once a request is sent, an engine throw fails with the engine error and a null reply with the null-response error, both keeping `_orders`; a placement happens only after a status reply. The sent items are exactly `BuildItems` of the orders (rounded prices and volumes, accuracies checked), and after a status reply the returned orders are the statuses' annotation of the input, placed exactly when no `Single` failed. No request is sent without a wallet, and a request always targets the pair with cancel-previous on both sides and one non-negative item per order |
| LykkeExchange.SubmitOnce | src/Lykke.Service.LP3.DomainServices/Exchanges/LykkeExchange.cs:38-42 | after a successful call, a second call with an equal list is skipped, sends nothing and keeps `_orders`, whatever its pair, wallet or engine |
| LykkeExchange.SkipIgnoresPair | src/Lykke.Service.LP3.DomainServices/Exchanges/LykkeExchange.cs:24-42 | whether a call is skipped does not depend on the pair, wallet, ids or engine, because `_orders` is one shared field |
| LykkeExchange.DistinctIdsPlace | src/Lykke.Service.LP3.DomainServices/Exchanges/LykkeExchange.cs:36-115 | a changed list with distinct ids, a wallet, valid accuracies and an answering engine is placed and becomes `_orders` |

## Left out

- `SynchronizeAsync` and the semaphore timeout: each operation is modelled as one atomic step. A cycle dropped on lock timeout is the same as not calling it.
- Logging, `ToJson`, and the async/await plumbing.
- Persistence: `SaveStatesAsync` of level states, and the initial-price store. The store is the `initialPrice` field, which `HandleTrades` overwrites.
- The `(double)` casts after rounding, `decimal` overflow, and the rounding of `decimal` products that need more than 28–29 significant digits (such as `level.VolumeSell * level.Sell`). Amounts are exact unbounded integers scaled by 10^28; both inventory counters subtract the same product, so the gaps would be unaffected by that rounding.
- Levels.SeedAll: `ILevelsService.UpdateReference` is not part of this model. It is taken to re-centre every level on the price, seeded or not, and to keep both capacities and the inventories.
- The `Level` class. Ask and bid are taken as `reference ± delta`, which matches how seeding and ratcheting use them.
- `ILevelsService.GetOrders`, the additional-volume service and the orders converter are parameters. The model assumes they do not throw. A throw in the source would abort reconciliation with the dictionary partly rewritten.
- Accuracies are natural numbers: a negative accuracy, which `Math.Round` would also reject, cannot be expressed.
- The status-code-to-error mapping (`ToOrderError`) and `ToOrderAction`: a status carries its already-mapped error, and an item carries the order's side.
- `LimitOrdersComparer` is not part of this model. Equality is taken to be side, price and volume.
- `GetBaseOrders` is just `GetOrders` on the base id.
- The coordinator passes a pair id where `ApplyAsync` takes an `AssetPair`. `Lp3Service.LykkeApply` resolves the id through a parameter.
- Dictionary enumeration order is modelled as insertion order.
- Common.Union: compares orders by value, while LINQ's `Union` on classes without an equality override compares references.
- FillWalk.HandleTrade: requires every level to have a positive rung size and capacities within bounds, which the source never checks. Without that the loop need not terminate (`FillWalk.ZeroRungStalls`).
- Lp3Service.HandleTrades: requires the same valid ladder, for the same reason.
- LykkeExchange.ApplyAsync: the fresh GUIDs are a parameter and are not assumed distinct. Only `LykkeExchange.IdMapFaithful` and `LykkeExchange.IdMapInjective` assume distinctness.
- Lp3Service.Reconcile: the exchange's `threw` flag is recorded but not inspected, since the source catches and logs every throw and moves on.

=== FILE: common.dfy ===
/** Shared helpers: an optional value, duplicate-free sequences, absolute value,
    and the order-preserving set union that LINQ's `Union` computes. */
module Common {

  /** A value that may be absent (a C# `null`). */
  datatype Option<+T> = None | Some(value: T)

  /** No element occurs twice. */
  predicate Distinct<T(==)>(s: seq<T>) {
    forall i, j :: 0 <= i < j < |s| ==> s[i] != s[j]
  }

  function Abs(x: int): (r: nat)
    ensures r == x || r == -x
  {
    if x < 0 then -x else x
  }

  /** Appends to `acc`, in order, each element of `xs` that is not yet present. */
  function AppendNew<T(==,!new)>(acc: seq<T>, xs: seq<T>): (r: seq<T>)
    requires Distinct(acc)
    ensures Distinct(r)
    ensures forall x :: x in r <==> x in acc || x in xs
    decreases |xs|
  {
    if |xs| == 0 then acc
    else if xs[0] in acc then AppendNew(acc, xs[1..])
    else AppendNew(acc + [xs[0]], xs[1..])
  }

  /** LINQ `a.Union(b)`: the distinct elements of `a` and then of `b`, each at
      its first occurrence. */
  function Union<T(==,!new)>(a: seq<T>, b: seq<T>): (r: seq<T>)
    ensures Distinct(r)
    ensures forall x :: x in r <==> x in a || x in b
    ensures r == Dedup(a + b)
    ensures forall i, j :: 0 <= i < j < |r| ==> FirstIndex(a + b, r[i]) < FirstIndex(a + b, r[j])
  {
    AppendNewIsDedup(a + b);
    DedupOrdered(a + b);
    AppendNew([], a + b)
  }

  /** The position of the first occurrence of `x` in `s`. */
  function FirstIndex<T(==)>(s: seq<T>, x: T): (k: nat)
    requires x in s
    ensures k < |s| && s[k] == x
    ensures forall i :: 0 <= i < k ==> s[i] != x
  {
    if s[0] == x then 0
    else
      var k := FirstIndex(s[1..], x);
      assert forall i :: 1 <= i <= k ==> s[i] == s[1..][i - 1];
      1 + k
  }

  /** Each element of `s` kept at its first occurrence, built back to front:
      the last element is kept only when it did not occur before. */
  function Dedup<T(==)>(s: seq<T>): seq<T>
  {
    if |s| == 0 then []
    else if s[|s| - 1] in s[..|s| - 1] then Dedup(s[..|s| - 1])
    else Dedup(s[..|s| - 1]) + [s[|s| - 1]]
  }

  /** A first occurrence in a list is still the first one after appending. */
  lemma FirstIndexExtend<T(!new)>(p: seq<T>, y: T, x: T)
    requires y in p
    ensures y in p + [x] && FirstIndex(p + [x], y) == FirstIndex(p, y)
  {
    var k := FirstIndex(p, y);
    assert (p + [x])[k] == y;
  }

  /** An element new to a list first occurs where it is appended. */
  lemma FirstIndexAppended<T(!new)>(p: seq<T>, x: T)
    requires x !in p
    ensures x in p + [x] && FirstIndex(p + [x], x) == |p|
  {
    assert (p + [x])[|p|] == x;
  }

  /** `Dedup` holds exactly the elements of its input, each once, ordered by
      where each first occurs. */
  lemma {:induction false} DedupOrdered<T(!new)>(s: seq<T>)
    ensures forall x :: x in Dedup(s) <==> x in s
    ensures forall i, j :: 0 <= i < j < |Dedup(s)| ==> FirstIndex(s, Dedup(s)[i]) < FirstIndex(s, Dedup(s)[j])
    decreases |s|
  {
    if |s| > 0 {
      var n := |s| - 1;
      var p := s[..n];
      var x := s[n];
      assert s == p + [x];
      DedupOrdered(p);
      var d := Dedup(p);
      forall y | y in p ensures FirstIndex(s, y) == FirstIndex(p, y) {
        FirstIndexExtend(p, y, x);
      }
      if x !in p {
        FirstIndexAppended(p, x);
        assert Dedup(s) == d + [x];
        forall i | 0 <= i < |d| ensures FirstIndex(s, d[i]) < FirstIndex(s, x) {
          assert d[i] in p;
        }
      }
    }
  }

  /** The fold that computes `Union` is `Dedup`. */
  lemma {:induction false} AppendNewIsDedup<T(!new)>(s: seq<T>)
    ensures AppendNew([], s) == Dedup(s)
    decreases |s|
  {
    if |s| > 0 {
      var n := |s| - 1;
      assert s == s[..n] + [s[n]];
      AppendNewConcat([], s[..n], [s[n]]);
      AppendNewIsDedup(s[..n]);
      var acc := AppendNew([], s[..n]);
      assert [s[n]][1..] == [];
      if s[n] in acc {
        assert AppendNew(acc, [s[n]]) == AppendNew(acc, []);
      } else {
        assert AppendNew(acc, [s[n]]) == AppendNew(acc + [s[n]], []);
      }
    }
  }

  /** Appending a list whose elements are all new appends it unchanged. */
  lemma {:induction false} AppendNewFresh<T(!new)>(acc: seq<T>, xs: seq<T>)
    requires Distinct(acc) && Distinct(acc + xs)
    ensures AppendNew(acc, xs) == acc + xs
    decreases |xs|
  {
    if |xs| > 0 {
      assert (acc + xs)[|acc|] == xs[0];
      assert xs[0] !in acc by {
        forall i | 0 <= i < |acc| ensures acc[i] != xs[0] {
          assert (acc + xs)[i] == acc[i];
        }
      }
      assert acc + xs == (acc + [xs[0]]) + xs[1..];
      AppendNewFresh(acc + [xs[0]], xs[1..]);
    }
  }

  /** Folding over `xs + ys` is folding over `xs` and then over `ys`. */
  lemma {:induction false} AppendNewConcat<T(!new)>(acc: seq<T>, xs: seq<T>, ys: seq<T>)
    requires Distinct(acc)
    ensures AppendNew(acc, xs + ys) == AppendNew(AppendNew(acc, xs), ys)
    decreases |xs|
  {
    if |xs| > 0 {
      assert (xs + ys)[0] == xs[0];
      assert (xs + ys)[1..] == xs[1..] + ys;
      if xs[0] in acc {
        AppendNewConcat(acc, xs[1..], ys);
      } else {
        AppendNewConcat(acc + [xs[0]], xs[1..], ys);
      }
    } else {
      assert xs + ys == ys;
    }
  }

  /** When the first list has no duplicates, the union starts with it unchanged. */
  lemma UnionKeepsFirstList<T(!new)>(a: seq<T>, b: seq<T>)
    requires Distinct(a)
    ensures |a| <= |Union(a, b)|
    ensures Union(a, b)[..|a|] == a
  {
    AppendNewConcat([], a, b);
    assert [] + a == a;
    AppendNewFresh([], a);
    AppendNewPrefix(a, b);
  }

  /** The fold never drops or reorders what is already accumulated. */
  lemma {:induction false} AppendNewPrefix<T(!new)>(acc: seq<T>, xs: seq<T>)
    requires Distinct(acc)
    ensures |acc| <= |AppendNew(acc, xs)|
    ensures AppendNew(acc, xs)[..|acc|] == acc
    decreases |xs|
  {
    if |xs| > 0 {
      if xs[0] in acc {
        AppendNewPrefix(acc, xs[1..]);
      } else {
        AppendNewPrefix(acc + [xs[0]], xs[1..]);
        assert (acc + [xs[0]])[..|acc|] == acc;
      }
    }
  }
}

=== FILE: domain.dfy ===
/** The order and trade records shared by the fill walk, the coordinator and
    the exchange. Prices and volumes are fixed-point integers (see FixedPoint). */
module Domain {

  datatype TradeType = Buy | Sell

  /** A fill of one of our orders; `volume` is the size as reported, unsigned. */
  datatype Trade = Trade(tradeType: TradeType, price: int, volume: int)

  /** `LimitOrderError`: `NoError` is its "none" value; `Rejected` stands for
      each named rejection code the venue reports. */
  datatype OrderError = NoError | Unknown | Rejected(code: nat)

  /** A desired quote; the sign of `volume` follows the side. `error` and
      `errorMessage` are filled in after a submission. */
  datatype LimitOrder = LimitOrder(
    id: string,
    tradeType: TradeType,
    price: int,
    volume: int,
    error: OrderError,
    errorMessage: string)

  /** The comparer behind "the orders did not change": same side, price and
      volume; the id and the error annotation are ignored. */
  predicate SameQuote(a: LimitOrder, b: LimitOrder) {
    a.tradeType == b.tradeType && a.price == b.price && a.volume == b.volume
  }

  /** LINQ `xs.SequenceEqual(ys, comparer)` with the comparer above. */
  predicate SequenceEqual(xs: seq<LimitOrder>, ys: seq<LimitOrder>) {
    |xs| == |ys| && forall i :: 0 <= i < |xs| ==> SameQuote(xs[i], ys[i])
  }

  /** Two lists that agree position by position on ids. */
  predicate SameIds(xs: seq<LimitOrder>, ys: seq<LimitOrder>) {
    |xs| == |ys| && forall i :: 0 <= i < |xs| ==> xs[i].id == ys[i].id
  }
}

=== FILE: fill_walk.dfy ===
/** The fill walk of `Lp3Service.HandleTrade` / `HandleVolume`: a trade's
    signed volume is applied, level by level, until nothing is left, and the
    service-wide inventory counters move in lock-step with the levels'. */
module FillWalk {
  import opened Common
  import opened Domain
  import opened Levels

  /** The ladder plus the service's `_inventory` / `_oppositeInventory`.
      Opposite inventory counts volume-units times price-units. */
  datatype Book = Book(levels: seq<Level>, inventory: int, oppositeInventory: int)

  /** One `HandleVolume` call: the updated book and the volume still to place. */
  datatype Step = Step(book: Book, remainder: int)

  /** Global counter minus the sum over the levels; fills never change it. */
  function InventoryGap(b: Book): int {
    b.inventory - Total(b.levels, InventoryOf)
  }

  function OppositeGap(b: Book): int {
    b.oppositeInventory - Total(b.levels, OppositeInventoryOf)
  }

  /** A sell trade enters the walk negated; a buy trade as it is: the size
      is kept and, for a positive trade volume, the sign tells the side. */
  function SignedVolume(t: Trade): (v: int)
    ensures Abs(v) == Abs(t.volume)
    ensures t.volume > 0 ==> (v < 0 <==> t.tradeType == Sell)
  {
    if t.tradeType == Sell then -t.volume else t.volume
  }

  /** The signed volume of a whole batch of trades. */
  function BatchVolume(trades: seq<Trade>): int {
    if |trades| == 0 then 0
    else BatchVolume(trades[..|trades| - 1]) + SignedVolume(trades[|trades| - 1])
  }

  /** The level a non-zero volume hits: lowest ask for selling pressure,
      highest bid for buying pressure. */
  function Target(levels: seq<Level>, volume: int): (k: nat)
    requires |levels| > 0
    ensures k < |levels|
  {
    if volume < 0 then LowestSell(levels) else HighestBuy(levels)
  }

  /** Books `amount` at `price` on the level's own inventory counters. */
  function Absorb(l: Level, amount: int, price: int): Level {
    l.(inventory := l.inventory + amount, oppositeInventory := l.oppositeInventory - amount * price)
  }

  /** One step of the walk. Full execution: the level absorbs exactly its
      remaining capacity, ratchets its reference to the hit price and is
      re-armed with a full rung; the rest is returned. Partial fill: capacity
      shrinks by the volume and nothing is returned. */
  function HandleVolume(b: Book, volume: int): (r: Step)
    requires volume != 0 ==> |b.levels| > 0
    ensures |r.book.levels| == |b.levels|
    ensures SameRungs(b.levels, r.book.levels)
    ensures r.book.inventory + r.remainder == b.inventory + volume
    ensures volume == 0 ==> r == Step(b, 0)
    ensures volume != 0 ==>
              var k := Target(b.levels, volume);
              && (forall j :: 0 <= j < |b.levels| && j != k ==> r.book.levels[j] == b.levels[j])
              && r.book.levels[k].inventory - b.levels[k].inventory == r.book.inventory - b.inventory
              && r.book.levels[k].oppositeInventory - b.levels[k].oppositeInventory
                 == r.book.oppositeInventory - b.oppositeInventory
  {
    if volume < 0 then
      var k := LowestSell(b.levels);
      var level := b.levels[k];
      var price := level.Sell();
      if volume <= level.volumeSell then
        var amount := level.volumeSell;
        var hit := Absorb(level, amount, price).UpdateReference(price).(volumeSell := -level.originalVolume);
        Step(Book(b.levels[k := hit], b.inventory + amount, b.oppositeInventory - amount * price), volume - amount)
      else
        var filled := Absorb(level, volume, price).(volumeSell := level.volumeSell - volume);
        Step(Book(b.levels[k := filled], b.inventory + volume, b.oppositeInventory - volume * price), 0)
    else if volume > 0 then
      var k := HighestBuy(b.levels);
      var level := b.levels[k];
      var price := level.Buy();
      if volume >= level.volumeBuy then
        var amount := level.volumeBuy;
        var hit := Absorb(level, amount, price).UpdateReference(price).(volumeBuy := level.originalVolume);
        Step(Book(b.levels[k := hit], b.inventory + amount, b.oppositeInventory - amount * price), volume - amount)
      else
        var filled := Absorb(level, volume, price).(volumeBuy := level.volumeBuy - volume);
        Step(Book(b.levels[k := filled], b.inventory + volume, b.oppositeInventory - volume * price), 0)
    else
      Step(b, 0)
  }

  /** Selling pressure on a valid ladder: the capacity invariant survives,
      the remainder keeps its sign and shrinks, a full execution ratchets the
      level up to where it was hit and re-arms it, and a partial fill moves
      the capacity toward zero by exactly the volume. */
  lemma SellStep(b: Book, volume: int)
    requires ValidLadder(b.levels) && |b.levels| > 0 && volume < 0
    ensures var r := HandleVolume(b, volume);
            var k := LowestSell(b.levels);
            var l := b.levels[k];
            var l' := r.book.levels[k];
            && ValidLadder(r.book.levels)
            && volume < r.remainder <= 0
            && (volume <= l.volumeSell ==>
                  && r.remainder == volume - l.volumeSell
                  && r.book.inventory == b.inventory + l.volumeSell
                  && r.book.oppositeInventory == b.oppositeInventory - l.volumeSell * l.Sell()
                  && l'.reference == l.Sell()
                  && l'.Sell() == l.Sell() + l.delta
                  && l'.volumeSell == -l.originalVolume
                  && l'.volumeBuy == l.volumeBuy)
            && (l.volumeSell < volume ==>
                  && r.remainder == 0
                  && l'.reference == l.reference
                  && l'.volumeSell == l.volumeSell - volume
                  && r.book.inventory == b.inventory + volume
                  && r.book.oppositeInventory == b.oppositeInventory - volume * l.Sell()
                  && l'.volumeBuy == l.volumeBuy
                  && l.volumeSell < l'.volumeSell < 0)
  {
  }

  /** Buying pressure, the mirror image of `SellStep`. */
  lemma BuyStep(b: Book, volume: int)
    requires ValidLadder(b.levels) && |b.levels| > 0 && volume > 0
    ensures var r := HandleVolume(b, volume);
            var k := HighestBuy(b.levels);
            var l := b.levels[k];
            var l' := r.book.levels[k];
            && ValidLadder(r.book.levels)
            && 0 <= r.remainder < volume
            && (volume >= l.volumeBuy ==>
                  && r.remainder == volume - l.volumeBuy
                  && r.book.inventory == b.inventory + l.volumeBuy
                  && r.book.oppositeInventory == b.oppositeInventory - l.volumeBuy * l.Buy()
                  && l'.reference == l.Buy()
                  && l'.Buy() == l.Buy() - l.delta
                  && l'.volumeBuy == l.originalVolume
                  && l'.volumeSell == l.volumeSell)
            && (volume < l.volumeBuy ==>
                  && r.remainder == 0
                  && l'.reference == l.reference
                  && l'.volumeBuy == l.volumeBuy - volume
                  && r.book.inventory == b.inventory + volume
                  && r.book.oppositeInventory == b.oppositeInventory - volume * l.Buy()
                  && l'.volumeSell == l.volumeSell
                  && 0 < l'.volumeBuy < l.volumeBuy)
  {
  }

  /** On a valid ladder every step keeps the invariant and strictly shrinks
      the magnitude of what is left, without changing its sign. */
  lemma StepShrinks(b: Book, volume: int)
    requires ValidLadder(b.levels) && |b.levels| > 0 && volume != 0
    ensures ValidLadder(HandleVolume(b, volume).book.levels)
    ensures Abs(HandleVolume(b, volume).remainder) < Abs(volume)
    ensures volume < 0 ==> HandleVolume(b, volume).remainder <= 0
    ensures volume > 0 ==> HandleVolume(b, volume).remainder >= 0
  {
    if volume < 0 {
      SellStep(b, volume);
    } else {
      BuyStep(b, volume);
    }
  }

  /** Each step changes a global counter and the sum over the levels by the
      same amount, so their differences are invariant. */
  lemma StepKeepsGaps(b: Book, volume: int)
    requires volume != 0 ==> |b.levels| > 0
    ensures InventoryGap(HandleVolume(b, volume).book) == InventoryGap(b)
    ensures OppositeGap(HandleVolume(b, volume).book) == OppositeGap(b)
  {
    if volume != 0 {
      var r := HandleVolume(b, volume);
      var k := Target(b.levels, volume);
      assert r.book.levels == b.levels[k := r.book.levels[k]];
      TotalUpdate(b.levels, k, r.book.levels[k], InventoryOf);
      TotalUpdate(b.levels, k, r.book.levels[k], OppositeInventoryOf);
    }
  }

  /** The whole walk: apply `volume` until nothing is left. Any non-empty
      valid ladder absorbs all of it, since a re-armed level can be hit again. */
  function Walk(b: Book, volume: int): (r: Book)
    requires ValidLadder(b.levels)
    requires volume != 0 ==> |b.levels| > 0
    ensures ValidLadder(r.levels) && SameRungs(b.levels, r.levels)
    ensures r.inventory == b.inventory + volume
    ensures InventoryGap(r) == InventoryGap(b) && OppositeGap(r) == OppositeGap(b)
    decreases Abs(volume)
  {
    if volume == 0 then b
    else
      var s := HandleVolume(b, volume);
      StepShrinks(b, volume);
      StepKeepsGaps(b, volume);
      Walk(s.book, s.remainder)
  }

  /** The effect of one `HandleTrade` call: nothing without levels, otherwise
      the walk of the trade's signed volume. */
  function TradeWalk(b: Book, t: Trade): (r: Book)
    requires ValidLadder(b.levels)
    ensures ValidLadder(r.levels) && SameRungs(b.levels, r.levels)
    ensures r.inventory == b.inventory + (if |b.levels| == 0 then 0 else SignedVolume(t))
    ensures InventoryGap(r) == InventoryGap(b) && OppositeGap(r) == OppositeGap(b)
  {
    if |b.levels| == 0 then b else Walk(b, SignedVolume(t))
  }

  /** A batch's signed volume, taken from the front. */
  lemma {:induction false} BatchVolumeCons(trades: seq<Trade>)
    requires |trades| > 0
    ensures BatchVolume(trades) == SignedVolume(trades[0]) + BatchVolume(trades[1..])
    decreases |trades|
  {
    var n := |trades| - 1;
    if n > 0 {
      assert trades[..n][0] == trades[0];
      assert trades[..n][1..] == trades[1..][..|trades[1..]| - 1];
      assert trades[1..][|trades[1..]| - 1] == trades[n];
      BatchVolumeCons(trades[..n]);
    } else {
      assert trades[..n] == [] && trades[1..] == [];
    }
  }

  /** The `foreach` over a batch: each trade walked in turn. A non-empty
      ladder absorbs the batch's whole signed volume. */
  function BatchWalk(b: Book, trades: seq<Trade>): (r: Book)
    requires ValidLadder(b.levels)
    ensures ValidLadder(r.levels) && SameRungs(b.levels, r.levels)
    ensures |b.levels| > 0 ==> r.inventory == b.inventory + BatchVolume(trades)
    ensures |b.levels| == 0 ==> r == b
    ensures InventoryGap(r) == InventoryGap(b) && OppositeGap(r) == OppositeGap(b)
    decreases |trades|
  {
    if |trades| == 0 then b
    else
      BatchVolumeCons(trades);
      BatchWalk(TradeWalk(b, trades[0]), trades[1..])
  }

  /** `HandleTrade`: with no levels the trade changes nothing; otherwise the
      signed volume is walked to zero. */
  method HandleTrade(b: Book, trade: Trade) returns (r: Book)
    requires ValidLadder(b.levels)
    ensures |b.levels| == 0 ==> r == b
    ensures |b.levels| > 0 ==> r == Walk(b, SignedVolume(trade))
    ensures r == TradeWalk(b, trade)
    ensures |b.levels| > 0 && trade.tradeType == Sell ==> r.inventory == b.inventory - trade.volume
    ensures |b.levels| > 0 && trade.tradeType == Buy ==> r.inventory == b.inventory + trade.volume
    ensures ValidLadder(r.levels) && SameRungs(b.levels, r.levels)
    ensures InventoryGap(r) == InventoryGap(b) && OppositeGap(r) == OppositeGap(b)
  {
    if |b.levels| == 0 {
      return b;
    }
    var volume := SignedVolume(trade);
    r := b;
    while volume != 0
      invariant ValidLadder(r.levels) && |r.levels| == |b.levels|
      invariant Walk(r, volume) == Walk(b, SignedVolume(trade))
      decreases Abs(volume)
    {
      StepShrinks(r, volume);
      var s := HandleVolume(r, volume);
      r, volume := s.book, s.remainder;
    }
  }

  /** A level whose rung size is zero is re-armed with zero capacity, so a
      step on it places nothing and hands back the whole volume: with only
      that level, `while (volume != 0)` never exits. */
  lemma ZeroRungStalls(b: Book, volume: int)
    requires |b.levels| == 1 && volume < 0
    requires b.levels[0].originalVolume == 0 && b.levels[0].volumeSell == 0
    ensures HandleVolume(b, volume).remainder == volume
    ensures HandleVolume(b, volume).book.levels[0].volumeSell == 0
    ensures HandleVolume(b, volume).book.levels[0].originalVolume == 0
  {
  }

  /** A rung with delta 10 and size 5 centred on 100: asks at 110, bids at 90. */
  function ScenarioLevel(): Level {
    Level("L1", 10, 5, 100, -5, 5, 0, 0)
  }

  /** A sell of 8 against that single rung: it executes fully (5 at 110),
      ratchets to 110 and, being the only level, takes the remaining 3 at
      its new ask of 120 as a partial fill. Nothing is left unplaced. */
  lemma OversizedSellOnOneLevel()
    ensures Walk(Book([ScenarioLevel()], 0, 0), -8)
            == Book([Level("L1", 10, 5, 110, -2, 5, -8, 910)], -8, 910)
  {
    var b0 := Book([ScenarioLevel()], 0, 0);
    var s1 := HandleVolume(b0, -8);
    assert s1 == Step(Book([Level("L1", 10, 5, 110, -5, 5, -5, 550)], -5, 550), -3);
    var s2 := HandleVolume(s1.book, -3);
    assert s2 == Step(Book([Level("L1", 10, 5, 110, -2, 5, -8, 910)], -8, 910), 0);
  }

  /** Sells of 3 and then 2 against the same rung: a partial fill to -2, then
      a full execution of the remaining 2 with exactly one ratchet. */
  lemma TwoSellsRatchetOnce()
    ensures Walk(Walk(Book([ScenarioLevel()], 0, 0), -3), -2)
            == Book([Level("L1", 10, 5, 110, -5, 5, -5, 550)], -5, 550)
  {
    var b0 := Book([ScenarioLevel()], 0, 0);
    var s1 := HandleVolume(b0, -3);
    assert s1 == Step(Book([Level("L1", 10, 5, 100, -2, 5, -3, 330)], -3, 330), 0);
    var s2 := HandleVolume(s1.book, -2);
    assert s2 == Step(Book([Level("L1", 10, 5, 110, -5, 5, -5, 550)], -5, 550), 0);
  }
}

=== FILE: fixed_point.dfy ===
/** C# `decimal` quantities as integers counting units of 10^-Scale, and the
    banker's rounding that `Math.Round(decimal, int)` performs on them. */
module FixedPoint {

  /** Fractional digits a `decimal` can carry; also the largest digit count
      `Math.Round(decimal, int)` accepts (it throws above it). */
  const Scale: nat := 28

  function Pow10(n: nat): (r: nat)
    ensures r >= 1
  {
    if n == 0 then 1 else 10 * Pow10(n - 1)
  }

  lemma ProductAtLeast(e: int, q: nat)
    requires e >= 1 && q > 0
    ensures e * q >= q
  {
    if e > 1 {
      ProductAtLeast(e - 1, q);
      assert e * q == (e - 1) * q + q;
    }
  }

  /** Dividing a multiple of `q` by `q` is exact. */
  lemma MultipleMod(k: int, q: nat)
    requires q > 0
    ensures (k * q) % q == 0
    ensures (k * q) / q == k
  {
    var d := (k * q) / q;
    var m := (k * q) % q;
    assert k * q == d * q + m;
    var e := k - d;
    assert e * q == k * q - d * q;
    assert e * q == m;
    if e >= 1 {
      ProductAtLeast(e, q);
    } else if e <= -1 {
      ProductAtLeast(-e, q);
    }
  }

  /** The multiple of `q` nearest to `x`; a tie goes to the even multiple. */
  function RoundToEven(x: int, q: nat): (r: int)
    requires q > 0
    ensures r % q == 0
    ensures 2 * (r - x) <= q && 2 * (x - r) <= q
    ensures (2 * (r - x) == q || 2 * (x - r) == q) ==> (r / q) % 2 == 0
    ensures x % q == 0 ==> r == x
    ensures x >= 0 ==> r >= 0
  {
    var k := x / q;
    var rem := x % q;
    assert x == k * q + rem;
    var down := k * q;
    var up := (k + 1) * q;
    assert up == down + q;
    MultipleMod(k, q);
    MultipleMod(k + 1, q);
    if 2 * rem < q then down
    else if 2 * rem > q then up
    else if k % 2 == 0 then down
    else up
  }

  /** `Math.Round(x, digits)` with the default midpoint rule (to even). */
  function Round(x: int, digits: nat): (r: int)
    requires digits <= Scale
    ensures r % Pow10(Scale - digits) == 0
    ensures 2 * (r - x) <= Pow10(Scale - digits) && 2 * (x - r) <= Pow10(Scale - digits)
    ensures (2 * (r - x) == Pow10(Scale - digits) || 2 * (x - r) == Pow10(Scale - digits)) ==>
              (r / Pow10(Scale - digits)) % 2 == 0
    ensures x >= 0 ==> r >= 0
    ensures digits == Scale ==> r == x
  {
    RoundToEven(x, Pow10(Scale - digits))
  }
}

=== FILE: levels.dfy ===
/** One rung of the quote ladder and the ladder-wide queries the fill walk
    relies on. The `Level` class itself is not part of this model: its
    quote prices are taken to be `reference ± delta`, and `UpdateReference`
    moves only the reference. */
module Levels {

  datatype Level = Level(
    name: string,
    delta: int,
    originalVolume: int,
    reference: int,
    volumeSell: int,
    volumeBuy: int,
    inventory: int,
    oppositeInventory: int)
  {
    /** Ask price: `delta` above the reference. */
    function Sell(): int {
      reference + delta
    }

    /** Bid price: `delta` below the reference. */
    function Buy(): int {
      reference - delta
    }

    /** Re-centres the level: both quotes move with the reference, nothing else changes. */
    function UpdateReference(price: int): (l: Level)
      ensures l.Sell() == price + delta && l.Buy() == price - delta
      ensures l.(reference := reference) == this
    {
      this.(reference := price)
    }
  }

  /** The capacity invariant: a positive rung size, sell capacity in
      `[-originalVolume, 0)` and buy capacity in `(0, originalVolume]`. */
  predicate ValidLevel(l: Level) {
    && 0 < l.originalVolume
    && -l.originalVolume <= l.volumeSell < 0
    && 0 < l.volumeBuy <= l.originalVolume
  }

  predicate ValidLadder(levels: seq<Level>) {
    forall i :: 0 <= i < |levels| ==> ValidLevel(levels[i])
  }

  /** Position by position the same rungs: name, delta and rung size agree. */
  predicate SameRungs(a: seq<Level>, b: seq<Level>) {
    && |a| == |b|
    && forall i :: 0 <= i < |a| ==>
         a[i].name == b[i].name && a[i].delta == b[i].delta && a[i].originalVolume == b[i].originalVolume
  }

  /** `levels.OrderBy(e => e.Sell).First()`: the first level with the lowest
      ask (the sort is stable, so ties go to the earliest level). */
  function LowestSell(levels: seq<Level>): (k: nat)
    requires |levels| > 0
    ensures k < |levels|
    ensures forall j :: 0 <= j < |levels| ==> levels[k].Sell() <= levels[j].Sell()
    ensures forall j :: 0 <= j < k ==> levels[j].Sell() > levels[k].Sell()
  {
    if |levels| == 1 then 0
    else
      var k := LowestSell(levels[..|levels| - 1]);
      if levels[|levels| - 1].Sell() < levels[k].Sell() then |levels| - 1 else k
  }

  /** `levels.OrderByDescending(e => e.Buy).First()`: the first level with the
      highest bid. */
  function HighestBuy(levels: seq<Level>): (k: nat)
    requires |levels| > 0
    ensures k < |levels|
    ensures forall j :: 0 <= j < |levels| ==> levels[k].Buy() >= levels[j].Buy()
    ensures forall j :: 0 <= j < k ==> levels[j].Buy() < levels[k].Buy()
  {
    if |levels| == 1 then 0
    else
      var k := HighestBuy(levels[..|levels| - 1]);
      if levels[|levels| - 1].Buy() > levels[k].Buy() then |levels| - 1 else k
  }

  function InventoryOf(l: Level): int {
    l.inventory
  }

  function OppositeInventoryOf(l: Level): int {
    l.oppositeInventory
  }

  /** The sum of `f` over the ladder. */
  function Total(levels: seq<Level>, f: Level -> int): int {
    if |levels| == 0 then 0 else f(levels[0]) + Total(levels[1..], f)
  }

  /** Replacing one level changes the sum by exactly that level's difference. */
  lemma {:induction false} TotalUpdate(levels: seq<Level>, k: nat, l: Level, f: Level -> int)
    requires k < |levels|
    ensures Total(levels[k := l], f) == Total(levels, f) - f(levels[k]) + f(l)
  {
    if k == 0 {
      assert levels[k := l][1..] == levels[1..];
    } else {
      assert levels[k := l][1..] == levels[1..][k - 1 := l];
      TotalUpdate(levels[1..], k - 1, l, f);
    }
  }

  /** `ILevelsService.UpdateReference(price)`: centres every level on one price. */
  function SeedAll(levels: seq<Level>, price: int): (r: seq<Level>)
    ensures SameRungs(levels, r)
    ensures forall i :: 0 <= i < |r| ==>
              r[i].Sell() == price + r[i].delta && r[i].Buy() == price - r[i].delta
    ensures forall i :: 0 <= i < |r| ==>
              r[i].volumeSell == levels[i].volumeSell && r[i].volumeBuy == levels[i].volumeBuy
              && r[i].inventory == levels[i].inventory
              && r[i].oppositeInventory == levels[i].oppositeInventory
    ensures ValidLadder(levels) ==> ValidLadder(r)
  {
    seq(|levels|, i requires 0 <= i < |levels| => levels[i].UpdateReference(price))
  }

  /** Ladders that agree level by level on `f` have the same sum. */
  lemma {:induction false} TotalsEqual(a: seq<Level>, b: seq<Level>, f: Level -> int)
    requires |a| == |b| && forall i :: 0 <= i < |a| ==> f(a[i]) == f(b[i])
    ensures Total(a, f) == Total(b, f)
    decreases |a|
  {
    if |a| > 0 {
      assert forall i :: 0 <= i < |a| - 1 ==> a[1..][i] == a[i + 1] && b[1..][i] == b[i + 1];
      TotalsEqual(a[1..], b[1..], f);
    }
  }

  /** Seeding moves no inventory: both ladder sums are unchanged. */
  lemma SeedAllKeepsTotals(levels: seq<Level>, price: int)
    ensures Total(SeedAll(levels, price), InventoryOf) == Total(levels, InventoryOf)
    ensures Total(SeedAll(levels, price), OppositeInventoryOf) == Total(levels, OppositeInventoryOf)
  {
    TotalsEqual(SeedAll(levels, price), levels, InventoryOf);
    TotalsEqual(SeedAll(levels, price), levels, OppositeInventoryOf);
  }
}

=== FILE: lp3_service.dfy ===
/** `Lp3Service`, the coordinator: trade batches run the fill walk, the timer
    starts the algorithm once an initial price and a base pair are known, and
    each reconciliation rebuilds the pair-to-orders dictionary and hands
    every pair's list to the exchange. Collaborators whose code is not part
    of this model (the levels service's order list, the additional-volume
    service, the orders converter, the settings and the exchange) are
    parameters in `Env`; the exchange's own state is the type parameter `X`. */
module Lp3Service {
  import opened Common
  import opened Domain
  import opened Levels
  import opened FillWalk
  import opened PairTable
  import LykkeExchange

  type OrderTable = seq<Entry<seq<LimitOrder>>>

  /** The stored base-pair settings; the pair id itself may be missing. */
  datatype BaseAssetPairSettings = BaseAssetPairSettings(assetPairId: Option<PairId>)

  /** A dependent pair and the parameters the orders converter needs. */
  datatype AssetPairSettings = AssetPairSettings(assetPairId: PairId, conversion: seq<int>)

  /** One `ApplyAsync` call as the coordinator sees it: the exchange's next
      state, the orders as annotated by the call, and whether it threw. */
  datatype Attempt<X> = Attempt(exchange: X, orders: seq<LimitOrder>, threw: bool)

  datatype Env<!X> = Env(
    baseSettings: Option<BaseAssetPairSettings>,
    dependentSettings: seq<AssetPairSettings>,
    levelOrders: seq<Level> -> seq<LimitOrder>,
    additionalOrders: seq<LimitOrder> -> seq<LimitOrder>,
    convert: (LimitOrder, AssetPairSettings) -> LimitOrder,
    apply: (X, PairId, seq<LimitOrder>) -> Attempt<X>)

  /** The service's fields; `initialPrice` is what the initial-price store holds. */
  datatype Service<X> = Service(
    book: Book,
    started: bool,
    baseAssetPairId: Option<PairId>,
    initialPrice: Option<int>,
    ordersByAssetPairs: OrderTable,
    exchange: X)

  /** A service state after an operation, and the `(pair, orders)` arguments
      of every `ApplyAsync` call made on the way, in order. */
  datatype Cycle<X> = Cycle(service: Service<X>, calls: OrderTable)

  datatype Run<X> = Run(exchange: X, table: OrderTable, calls: OrderTable)

  /** `(await GetBaseAssetPairSettingsAsync())?.AssetPairId`. */
  function ConfiguredBaseId<X>(env: Env<X>): Option<PairId> {
    match env.baseSettings
    case None => None
    case Some(settings) => settings.assetPairId
  }

  function DependentIds(deps: seq<AssetPairSettings>): set<PairId> {
    set i | 0 <= i < |deps| :: deps[i].assetPairId
  }

  lemma DependentIdsCons(deps: seq<AssetPairSettings>)
    requires |deps| > 0
    ensures DependentIds(deps) == {deps[0].assetPairId} + DependentIds(deps[1..])
  {
    forall x | x in DependentIds(deps) ensures x in {deps[0].assetPairId} + DependentIds(deps[1..]) {
      var i :| 0 <= i < |deps| && deps[i].assetPairId == x;
      if i > 0 { assert deps[1..][i - 1].assetPairId == x; }
    }
    forall x | x in DependentIds(deps[1..]) ensures x in DependentIds(deps) {
      var i :| 0 <= i < |deps[1..]| && deps[1..][i].assetPairId == x;
      assert deps[i + 1].assetPairId == x;
    }
  }

  /** The base pair's desired list: empty once the base settings are gone,
      otherwise the levels' orders united with the additional orders. */
  function BaseDesired<X>(s: Service<X>, env: Env<X>): (r: seq<LimitOrder>)
    ensures env.baseSettings.None? ==> r == []
    ensures env.baseSettings.Some? ==>
              var levelOrders := env.levelOrders(s.book.levels);
              && Distinct(r)
              && (forall o :: o in r <==> o in levelOrders || o in env.additionalOrders(levelOrders))
              && (Distinct(levelOrders) ==> |levelOrders| <= |r| && r[..|levelOrders|] == levelOrders)
  {
    if env.baseSettings.None? then []
    else
      var levelOrders := env.levelOrders(s.book.levels);
      var r := Union(levelOrders, env.additionalOrders(levelOrders));
      assert Distinct(levelOrders) ==> |levelOrders| <= |r| && r[..|levelOrders|] == levelOrders by {
        if Distinct(levelOrders) {
          UnionKeepsFirstList(levelOrders, env.additionalOrders(levelOrders));
        }
      }
      r
  }

  /** `orders.Select(x => convert(x, settings))`. */
  function ConvertOrders(orders: seq<LimitOrder>, settings: AssetPairSettings,
                         convert: (LimitOrder, AssetPairSettings) -> LimitOrder): (r: seq<LimitOrder>)
    ensures |r| == |orders|
    ensures forall i :: 0 <= i < |orders| ==> r[i] == convert(orders[i], settings)
  {
    seq(|orders|, i requires 0 <= i < |orders| => convert(orders[i], settings))
  }

  /** The loop over the dependent-pair settings: each pair's entry becomes the
      conversion of the base pair's entry as it stands at that moment. */
  function ConvertDependents(t: OrderTable, base: PairId, deps: seq<AssetPairSettings>,
                             convert: (LimitOrder, AssetPairSettings) -> LimitOrder): (r: OrderTable)
    requires Wf(t) && base in Keys(t)
    ensures Wf(r) && Keys(r) == Keys(t) + DependentIds(deps)
    ensures forall k :: k !in DependentIds(deps) ==> Find(r, k) == Find(t, k)
    decreases |deps|
  {
    if |deps| == 0 then t
    else
      DependentIdsCons(deps);
      var converted := ConvertOrders(Find(t, base).value, deps[0], convert);
      ConvertDependents(Put(t, deps[0].assetPairId, converted), base, deps[1..], convert)
  }

  /** The base pair's list as the conversion loop leaves it: every settings
      row that names the base pair itself replaces it by its own conversion,
      so the rows after it convert an already converted list. */
  function BaseAfter(orders: seq<LimitOrder>, base: PairId, deps: seq<AssetPairSettings>,
                     convert: (LimitOrder, AssetPairSettings) -> LimitOrder): (r: seq<LimitOrder>)
    ensures base !in DependentIds(deps) ==> r == orders
    decreases |deps|
  {
    if |deps| == 0 then orders
    else
      DependentIdsCons(deps);
      BaseAfter(if deps[0].assetPairId == base then ConvertOrders(orders, deps[0], convert) else orders,
                base, deps[1..], convert)
  }

  /** `ClearDeletedDependentPairs`: every key that is not a configured
      dependent pair is set to the empty list, the base pair's key included. */
  function ClearDeletedDependentPairs(t: OrderTable, ids: set<PairId>): (r: OrderTable)
    requires Wf(t)
    ensures Wf(r) && Keys(r) == Keys(t)
    ensures forall k :: Find(r, k) == if k in Keys(t) && k !in ids then Some([]) else Find(t, k)
  {
    var r := seq(|t|, i requires 0 <= i < |t| => if t[i].key in ids then t[i] else Entry(t[i].key, []));
    assert forall i :: 0 <= i < |t| ==> r[i].key == t[i].key;
    assert Keys(r) == Keys(t) by {
      forall x | x in Keys(t) ensures x in Keys(r) {
        var i :| 0 <= i < |t| && t[i].key == x;
        assert r[i].key == x;
      }
    }
    forall k ensures Find(r, k) == if k in Keys(t) && k !in ids then Some([]) else Find(t, k) {
      if k in Keys(t) {
        var i :| 0 <= i < |t| && t[i].key == k;
        assert r[i].key == k;
      }
    }
    r
  }

  /** The dictionary just before the exchange is called. */
  function Desired<X>(s: Service<X>, env: Env<X>, base: PairId): (t: OrderTable)
    requires Wf(s.ordersByAssetPairs)
    ensures Wf(t)
    ensures Keys(t) == Keys(s.ordersByAssetPairs) + {base} + DependentIds(env.dependentSettings)
  {
    var t1 := Put(s.ordersByAssetPairs, base, BaseDesired(s, env));
    var t2 := ConvertDependents(t1, base, env.dependentSettings, env.convert);
    ClearDeletedDependentPairs(t2, DependentIds(env.dependentSettings))
  }

  /** The exchange only annotates: what a call hands back equals what it was
      given, under the orders comparer. */
  ghost predicate AnnotationOnly<X(!new)>(apply: (X, PairId, seq<LimitOrder>) -> Attempt<X>) {
    forall x, p, l :: SequenceEqual(apply(x, p, l).orders, l)
  }

  /** The `foreach` over the dictionary: `ApplyAsync` is called for every
      entry, in order, whether or not an earlier call threw (each throw is
      caught and logged); the annotated orders stay in the dictionary. */
  function ApplyAll<X(!new)>(x: X, t: OrderTable, apply: (X, PairId, seq<LimitOrder>) -> Attempt<X>): (r: Run<X>)
    ensures r.calls == t
    ensures |r.table| == |t| && forall i :: 0 <= i < |t| ==> r.table[i].key == t[i].key
    ensures AnnotationOnly(apply) ==>
              forall i :: 0 <= i < |t| ==> SequenceEqual(r.table[i].value, t[i].value)
    decreases |t|
  {
    if |t| == 0 then Run(x, [], [])
    else
      var a := apply(x, t[0].key, t[0].value);
      var rest := ApplyAll(a.exchange, t[1..], apply);
      var r := Run(rest.exchange, [Entry(t[0].key, a.orders)] + rest.table, [t[0]] + rest.calls);
      assert forall i :: 1 <= i < |t| ==> r.table[i] == rest.table[i - 1];
      r
  }

  /** `ApplyOrdersAsync`. Without a base pair id the first dictionary write
      throws, the outer handler swallows it and nothing changes. Otherwise the
      dictionary is rebuilt, every entry is applied, and a deleted base pair
      stops the algorithm. Levels, inventories and the initial price are
      never touched. */
  function Reconcile<X(!new)>(s: Service<X>, env: Env<X>): (c: Cycle<X>)
    requires Wf(s.ordersByAssetPairs)
    ensures Wf(c.service.ordersByAssetPairs)
    ensures c.service.book == s.book && c.service.initialPrice == s.initialPrice
    ensures c.service.baseAssetPairId == s.baseAssetPairId
    ensures s.baseAssetPairId.None? ==> c == Cycle(s, [])
    ensures s.baseAssetPairId.Some? ==> c.service.started == (s.started && env.baseSettings.Some?)
  {
    match s.baseAssetPairId
    case None => Cycle(s, [])
    case Some(base) =>
      var t := Desired(s, env, base);
      var run := ApplyAll(s.exchange, t, env.apply);
      assert Wf(run.table) by {
        forall i, j | 0 <= i < j < |run.table| ensures run.table[i].key != run.table[j].key {
          assert run.table[i].key == t[i].key && run.table[j].key == t[j].key;
        }
      }
      Cycle(s.(ordersByAssetPairs := run.table, exchange := run.exchange,
               started := s.started && env.baseSettings.Some?),
            run.calls)
  }

  /** `StartAsync`: with an initial price the base pair id is re-read (and
      overwritten, possibly with nothing); with both present the levels are
      centred on the price, the service starts and reconciles. */
  function Start<X(!new)>(s: Service<X>, env: Env<X>): (c: Cycle<X>)
    requires Wf(s.ordersByAssetPairs)
    ensures Wf(c.service.ordersByAssetPairs)
    ensures s.initialPrice.None? ==> c == Cycle(s, [])
    ensures s.initialPrice.Some? ==> c.service.baseAssetPairId == ConfiguredBaseId(env)
    ensures c.service.started && !s.started ==> s.initialPrice.Some? && ConfiguredBaseId(env).Some?
    ensures c.calls != [] ==> c.service.baseAssetPairId.Some?
    ensures c.service.initialPrice == s.initialPrice
    ensures c.service.book.inventory == s.book.inventory
    ensures c.service.book.oppositeInventory == s.book.oppositeInventory
    ensures SameRungs(s.book.levels, c.service.book.levels)
    ensures forall i :: 0 <= i < |s.book.levels| ==>
              && c.service.book.levels[i].inventory == s.book.levels[i].inventory
              && c.service.book.levels[i].oppositeInventory == s.book.levels[i].oppositeInventory
    ensures ValidLadder(s.book.levels) ==> ValidLadder(c.service.book.levels)
    ensures InventoryGap(c.service.book) == InventoryGap(s.book)
    ensures OppositeGap(c.service.book) == OppositeGap(s.book)
  {
    match s.initialPrice
    case None => Cycle(s, [])
    case Some(price) =>
      var s1 := s.(baseAssetPairId := ConfiguredBaseId(env));
      if s1.baseAssetPairId.None? then Cycle(s1, [])
      else
        SeedAllKeepsTotals(s1.book.levels, price);
        Reconcile(s1.(book := s1.book.(levels := SeedAll(s1.book.levels, price)), started := true), env)
  }

  /** `HandleTimerAsync`: start while stopped, reconcile once started. */
  function Timer<X(!new)>(s: Service<X>, env: Env<X>): (c: Cycle<X>)
    requires Wf(s.ordersByAssetPairs)
    ensures Wf(c.service.ordersByAssetPairs)
    ensures c.service.started && c.service.baseAssetPairId.Some? ==> env.baseSettings.Some?
    ensures c.service.initialPrice == s.initialPrice
    ensures c.service.book.inventory == s.book.inventory
    ensures c.service.book.oppositeInventory == s.book.oppositeInventory
    ensures SameRungs(s.book.levels, c.service.book.levels)
    ensures forall i :: 0 <= i < |s.book.levels| ==>
              && c.service.book.levels[i].inventory == s.book.levels[i].inventory
              && c.service.book.levels[i].oppositeInventory == s.book.levels[i].oppositeInventory
    ensures ValidLadder(s.book.levels) ==> ValidLadder(c.service.book.levels)
    ensures InventoryGap(c.service.book) == InventoryGap(s.book)
    ensures OppositeGap(c.service.book) == OppositeGap(s.book)
  {
    if !s.started then Start(s, env) else Reconcile(s, env)
  }

  /** `GetOrders(assetPairId)`: the pair's list, or an empty one. */
  function GetOrders<X>(s: Service<X>, pair: PairId): (r: seq<LimitOrder>)
    ensures pair !in Keys(s.ordersByAssetPairs) ==> r == []
    ensures pair in Keys(s.ordersByAssetPairs) ==> Find(s.ordersByAssetPairs, pair) == Some(r)
    ensures r != [] ==> pair in Keys(s.ordersByAssetPairs)
  {
    match Find(s.ordersByAssetPairs, pair)
    case Some(orders) => orders
    case None => []
  }

  /** `HandleTradesAsync`: the last trade's price becomes the stored initial
      price, each trade is walked through the ladder in order, then the
      service reconciles. An empty batch throws at `trades.Last()` before
      anything changes (`ok` is false). */
  method HandleTrades<X(!new)>(s: Service<X>, env: Env<X>, trades: seq<Trade>) returns (c: Cycle<X>, ok: bool)
    requires ValidLadder(s.book.levels) && Wf(s.ordersByAssetPairs)
    ensures ok <==> |trades| > 0
    ensures !ok ==> c == Cycle(s, [])
    ensures ok ==> c == Reconcile(s.(initialPrice := Some(trades[|trades| - 1].price),
                                     book := BatchWalk(s.book, trades)), env)
    ensures ok ==> c.service.initialPrice == Some(trades[|trades| - 1].price)
    ensures ok && |s.book.levels| > 0 ==> c.service.book.inventory == s.book.inventory + BatchVolume(trades)
    ensures |s.book.levels| == 0 ==> c.service.book == s.book
    ensures ValidLadder(c.service.book.levels) && SameRungs(s.book.levels, c.service.book.levels)
    ensures InventoryGap(c.service.book) == InventoryGap(s.book)
    ensures OppositeGap(c.service.book) == OppositeGap(s.book)
    ensures s.baseAssetPairId.None? ==> c.calls == []
  {
    if |trades| == 0 {
      return Cycle(s, []), false;
    }
    var book := s.book;
    var i := 0;
    assert trades[0..] == trades;
    while i < |trades|
      invariant 0 <= i <= |trades|
      invariant ValidLadder(book.levels)
      invariant BatchWalk(book, trades[i..]) == BatchWalk(s.book, trades)
    {
      book := HandleTrade(book, trades[i]);
      assert trades[i..][1..] == trades[i + 1..];
      i := i + 1;
    }
    assert trades[|trades|..] == [];
    c := Reconcile(s.(initialPrice := Some(trades[|trades| - 1].price), book := book), env);
    ok := true;
  }

  /** A dependent pair's entry is the conversion of the base list, for the
      last settings entry naming that pair, as long as the base pair is not
      itself listed as a dependent (which would overwrite the base list). */
  lemma ConvertDependentsLast(
    t: OrderTable, base: PairId, deps: seq<AssetPairSettings>,
    convert: (LimitOrder, AssetPairSettings) -> LimitOrder, i: nat)
    requires Wf(t) && base in Keys(t) && base !in DependentIds(deps)
    requires i < |deps|
    requires forall j :: i < j < |deps| ==> deps[j].assetPairId != deps[i].assetPairId
    ensures Find(ConvertDependents(t, base, deps, convert), deps[i].assetPairId)
            == Some(ConvertOrders(Find(t, base).value, deps[i], convert))
  {
    var before := deps[..i];
    forall j | 0 <= j < |before| ensures before[j].assetPairId != base {
      assert before[j] == deps[j];
      assert deps[j].assetPairId in DependentIds(deps);
    }
    BaseAfterUnlisted(Find(t, base).value, base, before, convert);
    ConvertDependentsChained(t, base, deps, convert, i);
  }

  /** Rows that never name the base pair leave the base list as it was. */
  lemma {:induction false} BaseAfterUnlisted(orders: seq<LimitOrder>, base: PairId, deps: seq<AssetPairSettings>,
                                             convert: (LimitOrder, AssetPairSettings) -> LimitOrder)
    requires forall j :: 0 <= j < |deps| ==> deps[j].assetPairId != base
    ensures BaseAfter(orders, base, deps, convert) == orders
    decreases |deps|
  {
    if |deps| > 0 {
      BaseAfterStep(orders, base, deps, convert);
      forall j | 0 <= j < |deps[1..]| ensures deps[1..][j].assetPairId != base {
        assert deps[1..][j] == deps[j + 1];
      }
      BaseAfterUnlisted(orders, base, deps[1..], convert);
    }
  }

  /** Converting from an empty base list empties every dependent entry and
      leaves the base entry empty. */
  lemma {:induction false} ConvertFromEmpty(
    t: OrderTable, base: PairId, deps: seq<AssetPairSettings>,
    convert: (LimitOrder, AssetPairSettings) -> LimitOrder)
    requires Wf(t) && Find(t, base) == Some([])
    ensures Find(ConvertDependents(t, base, deps, convert), base) == Some([])
    ensures forall k :: k in DependentIds(deps) ==> Find(ConvertDependents(t, base, deps, convert), k) == Some([])
    decreases |deps|
  {
    if |deps| > 0 {
      DependentIdsCons(deps);
      var t1 := Put(t, deps[0].assetPairId, ConvertOrders([], deps[0], convert));
      assert ConvertOrders([], deps[0], convert) == [];
      ConvertFromEmpty(t1, base, deps[1..], convert);
    }
  }

  /** Every entry of a well-formed table is what `Find` returns for its key. */
  lemma EntriesFromFind(t: OrderTable, v: seq<LimitOrder>)
    requires Wf(t)
    requires forall k :: k in Keys(t) ==> Find(t, k) == Some(v)
    ensures forall i :: 0 <= i < |t| ==> t[i].value == v
  {
    forall i | 0 <= i < |t| ensures t[i].value == v {
      assert t[i].key in Keys(t);
    }
  }

  /** A deleted base pair stops the algorithm and every pair, the base pair
      and all dependent pairs included, is applied with an empty list. */
  lemma ReconcileOnBaseDeletion<X(!new)>(s: Service<X>, env: Env<X>)
    requires Wf(s.ordersByAssetPairs) && s.baseAssetPairId.Some? && env.baseSettings.None?
    ensures var c := Reconcile(s, env);
            && !c.service.started
            && s.baseAssetPairId.value in Keys(c.calls)
            && forall i :: 0 <= i < |c.calls| ==> c.calls[i].value == []
  {
    var base := s.baseAssetPairId.value;
    var deps := env.dependentSettings;
    var t1 := Put(s.ordersByAssetPairs, base, BaseDesired(s, env));
    var t2 := ConvertDependents(t1, base, deps, env.convert);
    ConvertFromEmpty(t1, base, deps, env.convert);
    var t := ClearDeletedDependentPairs(t2, DependentIds(deps));
    assert t == Desired(s, env, base);
    EntriesFromFind(t, []);
  }

  /** After reconciliation every pair that is not a configured dependent pair
      was applied with an empty list; in particular the base pair's freshly
      built list is wiped unless the base pair is also listed as dependent. */
  lemma ReconcileClearsUnlisted<X(!new)>(s: Service<X>, env: Env<X>)
    requires Wf(s.ordersByAssetPairs) && s.baseAssetPairId.Some?
    ensures var c := Reconcile(s, env);
            && (forall k :: k in Keys(c.calls) && k !in DependentIds(env.dependentSettings) ==>
                  Find(c.calls, k) == Some([]))
            && (s.baseAssetPairId.value !in DependentIds(env.dependentSettings) ==>
                  Find(c.calls, s.baseAssetPairId.value) == Some([]))
  {
  }

  /** With the base pair configured and not listed among its own dependents,
      each dependent pair is applied with the element-wise conversion of the
      base list (levels' orders united with the additional orders), using
      the last settings entry that names it. */
  lemma ReconcileConvertsDependents<X(!new)>(s: Service<X>, env: Env<X>, i: nat)
    requires Wf(s.ordersByAssetPairs) && s.baseAssetPairId.Some?
    requires s.baseAssetPairId.value !in DependentIds(env.dependentSettings)
    requires i < |env.dependentSettings|
    requires forall j :: i < j < |env.dependentSettings| ==>
               env.dependentSettings[j].assetPairId != env.dependentSettings[i].assetPairId
    ensures Find(Reconcile(s, env).calls, env.dependentSettings[i].assetPairId)
            == Some(ConvertOrders(BaseDesired(s, env), env.dependentSettings[i], env.convert))
  {
    var base := s.baseAssetPairId.value;
    var deps := env.dependentSettings;
    var t1 := Put(s.ordersByAssetPairs, base, BaseDesired(s, env));
    ConvertDependentsLast(t1, base, deps, env.convert, i);
    assert deps[i].assetPairId in DependentIds(deps);
  }

  /** Every key of the dictionary (the old ones, the base pair and each
      dependent pair) is applied exactly once, whichever calls throw, and
      the dictionary keeps exactly those keys. */
  lemma ReconcileAttemptsEveryPair<X(!new)>(s: Service<X>, env: Env<X>)
    requires Wf(s.ordersByAssetPairs) && s.baseAssetPairId.Some?
    ensures var c := Reconcile(s, env);
            && Wf(c.calls)
            && Keys(c.calls) == Keys(s.ordersByAssetPairs) + {s.baseAssetPairId.value}
                                + DependentIds(env.dependentSettings)
            && |c.service.ordersByAssetPairs| == |c.calls|
            && forall i :: 0 <= i < |c.calls| ==> c.service.ordersByAssetPairs[i].key == c.calls[i].key
  {
  }

  /** When the exchange only annotates, a pair that is not a configured
      dependent pair reads back empty after reconciliation. */
  lemma RemovedPairReadsEmpty<X(!new)>(s: Service<X>, env: Env<X>, pair: PairId)
    requires Wf(s.ordersByAssetPairs) && s.baseAssetPairId.Some?
    requires AnnotationOnly(env.apply)
    requires pair !in DependentIds(env.dependentSettings)
    ensures GetOrders(Reconcile(s, env).service, pair) == []
  {
    var c := Reconcile(s, env);
    var t := c.service.ordersByAssetPairs;
    ReconcileClearsUnlisted(s, env);
    ReconcileAttemptsEveryPair(s, env);
    if pair in Keys(t) {
      var i :| 0 <= i < |t| && t[i].key == pair;
      assert c.calls[i].key == pair;
      assert Find(c.calls, pair) == Some(c.calls[i].value);
      assert SequenceEqual(t[i].value, c.calls[i].value);
    }
  }

  /** The timer while stopped: the service starts exactly when an initial
      price and a base pair id are both present. Otherwise no pair is
      applied and the ladder, the dictionary and the exchange are untouched;
      when it starts, every level is centred on the initial price. */
  lemma TimerColdStart<X(!new)>(s: Service<X>, env: Env<X>)
    requires Wf(s.ordersByAssetPairs) && !s.started
    ensures var c := Timer(s, env);
            && (c.service.started <==> s.initialPrice.Some? && ConfiguredBaseId(env).Some?)
            && (s.initialPrice.None? || ConfiguredBaseId(env).None? ==>
                  && c.calls == []
                  && c.service.book == s.book
                  && c.service.ordersByAssetPairs == s.ordersByAssetPairs
                  && c.service.exchange == s.exchange)
            && (s.initialPrice.Some? && ConfiguredBaseId(env).Some? ==>
                  && c.service.book.levels == SeedAll(s.book.levels, s.initialPrice.value)
                  && c.service.baseAssetPairId == ConfiguredBaseId(env))
    ensures s.initialPrice.Some? && ConfiguredBaseId(env).Some? ==>
              Timer(s, env) == Reconcile(s.(baseAssetPairId := ConfiguredBaseId(env),
                                            book := s.book.(levels := SeedAll(s.book.levels, s.initialPrice.value)),
                                            started := true), env)
  {
  }

  /** Once started, the timer reconciles. */
  lemma TimerWhenStarted<X(!new)>(s: Service<X>, env: Env<X>)
    requires Wf(s.ordersByAssetPairs) && s.started
    ensures Timer(s, env) == Reconcile(s, env)
  {
  }

  /** The Lykke exchange as the coordinator's `apply`: its state is the last
      applied list, the pair id is resolved to the pair's record by `pairOf`,
      and every outcome other than a skip or a placement is a throw. */
  function LykkeApply(pairOf: PairId -> LykkeExchange.AssetPair, walletId: string, requestId: string,
                      freshIds: nat -> string, engine: LykkeExchange.MultiLimitOrder -> LykkeExchange.Reply)
    : (apply: (Option<seq<LimitOrder>>, PairId, seq<LimitOrder>) -> Attempt<Option<seq<LimitOrder>>>)
    ensures forall x, p, l :: SequenceEqual(apply(x, p, l).orders, l)
    ensures forall x, p, l :: apply(x, p, l).threw ==> apply(x, p, l).exchange == x
    ensures forall x, p, l :: apply(x, p, l).exchange == x || apply(x, p, l).exchange == Some(apply(x, p, l).orders)
  {
    var apply := (last: Option<seq<LimitOrder>>, p: PairId, l: seq<LimitOrder>) =>
      var r := LykkeExchange.ApplyAsync(last, pairOf(p), l, walletId, requestId, freshIds, engine);
      Attempt(r.last, r.orders, !(r.outcome.Skipped? || r.outcome.Placed?));
    assert forall x, p, l :: && SequenceEqual(apply(x, p, l).orders, l)
                             && (apply(x, p, l).threw ==> apply(x, p, l).exchange == x)
                             && (apply(x, p, l).exchange == x || apply(x, p, l).exchange == Some(apply(x, p, l).orders)) by {
      forall x: Option<seq<LimitOrder>>, p: PairId, l: seq<LimitOrder>
        ensures && SequenceEqual(apply(x, p, l).orders, l)
                && (apply(x, p, l).threw ==> apply(x, p, l).exchange == x)
                && (apply(x, p, l).exchange == x || apply(x, p, l).exchange == Some(apply(x, p, l).orders))
      {
        var r := LykkeExchange.ApplyAsync(x, pairOf(p), l, walletId, requestId, freshIds, engine);
        assert apply(x, p, l) == Attempt(r.last, r.orders, !(r.outcome.Skipped? || r.outcome.Placed?));
      }
    }
    apply
  }

  /** The Lykke exchange only annotates, so the coordinator's dictionary keeps
      the quotes it built; with it, a pair that is not a configured dependent
      pair reads back empty after reconciliation. */
  lemma LykkeApplyAnnotates(
    s: Service<Option<seq<LimitOrder>>>, env: Env<Option<seq<LimitOrder>>>, pair: PairId,
    pairOf: PairId -> LykkeExchange.AssetPair, walletId: string, requestId: string,
    freshIds: nat -> string, engine: LykkeExchange.MultiLimitOrder -> LykkeExchange.Reply)
    requires env.apply == LykkeApply(pairOf, walletId, requestId, freshIds, engine)
    requires Wf(s.ordersByAssetPairs) && s.baseAssetPairId.Some?
    requires pair !in DependentIds(env.dependentSettings)
    ensures AnnotationOnly(env.apply)
    ensures GetOrders(Reconcile(s, env).service, pair) == []
  {
    forall x, p, l ensures SequenceEqual(env.apply(x, p, l).orders, l) {
      var r := LykkeExchange.ApplyAsync(x, pairOf(p), l, walletId, requestId, freshIds, engine);
      assert env.apply(x, p, l).orders == r.orders;
    }
    RemovedPairReadsEmpty(s, env, pair);
  }

  /** Whatever the settings list, the base pair's entry after the conversion
      loop is the base list converted once per row that names the base pair. */
  lemma {:induction false} ConvertDependentsBase(
    t: OrderTable, base: PairId, deps: seq<AssetPairSettings>,
    convert: (LimitOrder, AssetPairSettings) -> LimitOrder)
    requires Wf(t) && base in Keys(t)
    ensures Find(ConvertDependents(t, base, deps, convert), base)
            == Some(BaseAfter(Find(t, base).value, base, deps, convert))
    decreases |deps|
  {
    if |deps| > 0 {
      var t1 := Put(t, deps[0].assetPairId, ConvertOrders(Find(t, base).value, deps[0], convert));
      ConvertDependentsBase(t1, base, deps[1..], convert);
    }
  }

  /** One step of the conversion loop. */
  lemma ConvertDependentsStep(t: OrderTable, base: PairId, deps: seq<AssetPairSettings>,
                              convert: (LimitOrder, AssetPairSettings) -> LimitOrder)
    requires Wf(t) && base in Keys(t) && |deps| > 0
    ensures ConvertDependents(t, base, deps, convert)
            == ConvertDependents(Put(t, deps[0].assetPairId, ConvertOrders(Find(t, base).value, deps[0], convert)),
                                 base, deps[1..], convert)
  {
  }

  /** The first row, when no later row names its pair, converts the base
      list as it stands before the loop. */
  lemma ConvertDependentsFirst(t: OrderTable, base: PairId, deps: seq<AssetPairSettings>,
                               convert: (LimitOrder, AssetPairSettings) -> LimitOrder)
    requires Wf(t) && base in Keys(t) && |deps| > 0
    requires forall j :: 0 < j < |deps| ==> deps[j].assetPairId != deps[0].assetPairId
    ensures Find(ConvertDependents(t, base, deps, convert), deps[0].assetPairId)
            == Some(ConvertOrders(Find(t, base).value, deps[0], convert))
  {
    ConvertDependentsStep(t, base, deps, convert);
    assert deps[0].assetPairId !in DependentIds(deps[1..]) by {
      forall j | 0 <= j < |deps[1..]| ensures deps[1..][j].assetPairId != deps[0].assetPairId {
        assert deps[1..][j] == deps[j + 1];
      }
    }
  }

  /** One step of `BaseAfter`. */
  lemma BaseAfterStep(orders: seq<LimitOrder>, base: PairId, deps: seq<AssetPairSettings>,
                      convert: (LimitOrder, AssetPairSettings) -> LimitOrder)
    requires |deps| > 0
    ensures BaseAfter(orders, base, deps, convert)
            == BaseAfter(if deps[0].assetPairId == base then ConvertOrders(orders, deps[0], convert) else orders,
                         base, deps[1..], convert)
  {
  }

  /** Whatever the settings list, the entry of the last row naming a pair is
      that row's conversion of the base entry as the rows before it left it:
      a row listed after one that names the base pair converts twice. */
  lemma {:induction false} ConvertDependentsChained(
    t: OrderTable, base: PairId, deps: seq<AssetPairSettings>,
    convert: (LimitOrder, AssetPairSettings) -> LimitOrder, i: nat)
    requires Wf(t) && base in Keys(t)
    requires i < |deps|
    requires forall j :: i < j < |deps| ==> deps[j].assetPairId != deps[i].assetPairId
    ensures Find(ConvertDependents(t, base, deps, convert), deps[i].assetPairId)
            == Some(ConvertOrders(BaseAfter(Find(t, base).value, base, deps[..i], convert), deps[i], convert))
    decreases |deps|
  {
    if i == 0 {
      ConvertDependentsFirst(t, base, deps, convert);
      assert deps[..0] == [];
    } else {
      var b0 := Find(t, base).value;
      var b1 := if deps[0].assetPairId == base then ConvertOrders(b0, deps[0], convert) else b0;
      var t1 := Put(t, deps[0].assetPairId, ConvertOrders(b0, deps[0], convert));
      ConvertDependentsStep(t, base, deps, convert);
      assert Find(t1, base) == Some(b1);
      LastInSuffix(deps, i);
      ConvertDependentsChained(t1, base, deps[1..], convert, i - 1);
      BaseAfterPrefix(b0, base, deps, i, convert);
    }
  }

  /** The last occurrence at `i` stays the last one in the tail. */
  lemma LastInSuffix(deps: seq<AssetPairSettings>, i: nat)
    requires 0 < i < |deps|
    requires forall j :: i < j < |deps| ==> deps[j].assetPairId != deps[i].assetPairId
    ensures deps[1..][i - 1] == deps[i]
    ensures forall j :: i - 1 < j < |deps[1..]| ==> deps[1..][j].assetPairId != deps[1..][i - 1].assetPairId
  {
    forall j | i - 1 < j < |deps[1..]| ensures deps[1..][j].assetPairId != deps[1..][i - 1].assetPairId {
      assert deps[1..][j] == deps[j + 1];
    }
  }

  /** `BaseAfter` over a prefix, one row peeled off the front. */
  lemma BaseAfterPrefix(orders: seq<LimitOrder>, base: PairId, deps: seq<AssetPairSettings>, i: nat,
                        convert: (LimitOrder, AssetPairSettings) -> LimitOrder)
    requires 0 < i <= |deps|
    ensures BaseAfter(orders, base, deps[..i], convert)
            == BaseAfter(if deps[0].assetPairId == base then ConvertOrders(orders, deps[0], convert) else orders,
                         base, deps[1..][..i - 1], convert)
  {
    BaseAfterStep(orders, base, deps[..i], convert);
    assert deps[..i][1..] == deps[1..][..i - 1];
    assert deps[..i][0] == deps[0];
  }

  /** Each dependent pair is applied with its row's conversion of the base
      list as the earlier rows left it; with the base pair not listed this is
      the plain conversion of the base list (`ReconcileConvertsDependents`). */
  lemma ReconcileConvertsChained<X(!new)>(s: Service<X>, env: Env<X>, i: nat)
    requires Wf(s.ordersByAssetPairs) && s.baseAssetPairId.Some?
    requires i < |env.dependentSettings|
    requires forall j :: i < j < |env.dependentSettings| ==>
               env.dependentSettings[j].assetPairId != env.dependentSettings[i].assetPairId
    ensures Find(Reconcile(s, env).calls, env.dependentSettings[i].assetPairId)
            == Some(ConvertOrders(BaseAfter(BaseDesired(s, env), s.baseAssetPairId.value,
                                            env.dependentSettings[..i], env.convert),
                                  env.dependentSettings[i], env.convert))
  {
    var base := s.baseAssetPairId.value;
    var deps := env.dependentSettings;
    var t1 := Put(s.ordersByAssetPairs, base, BaseDesired(s, env));
    ConvertDependentsChained(t1, base, deps, env.convert, i);
    assert deps[i].assetPairId in DependentIds(deps);
  }

  /** A base pair listed among its own dependents keeps a list: the base list
      converted once per row naming it (with an identity conversion, the base
      list itself), rather than the empty list of `ReconcileClearsUnlisted`. */
  lemma ReconcileBaseListedAsDependent<X(!new)>(s: Service<X>, env: Env<X>)
    requires Wf(s.ordersByAssetPairs) && s.baseAssetPairId.Some?
    requires s.baseAssetPairId.value in DependentIds(env.dependentSettings)
    ensures Find(Reconcile(s, env).calls, s.baseAssetPairId.value)
            == Some(BaseAfter(BaseDesired(s, env), s.baseAssetPairId.value, env.dependentSettings, env.convert))
  {
    var base := s.baseAssetPairId.value;
    var t1 := Put(s.ordersByAssetPairs, base, BaseDesired(s, env));
    ConvertDependentsBase(t1, base, env.dependentSettings, env.convert);
  }

  /** The base pair listed first, then one other pair: that pair receives the
      base list converted twice, first with the base row's settings. */
  lemma BaseListedFirstConvertsTwice<X(!new)>(s: Service<X>, env: Env<X>)
    requires Wf(s.ordersByAssetPairs) && s.baseAssetPairId.Some?
    requires |env.dependentSettings| == 2
    requires env.dependentSettings[0].assetPairId == s.baseAssetPairId.value
    requires env.dependentSettings[1].assetPairId != s.baseAssetPairId.value
    ensures Find(Reconcile(s, env).calls, env.dependentSettings[1].assetPairId)
            == Some(ConvertOrders(ConvertOrders(BaseDesired(s, env), env.dependentSettings[0], env.convert),
                                  env.dependentSettings[1], env.convert))
  {
    var deps := env.dependentSettings;
    ReconcileConvertsChained(s, env, 1);
    assert deps[..1][1..] == [];
  }
}

=== FILE: lykke_exchange.dfy ===
/** `LykkeExchange.ApplyAsync`: skip when the orders did not change since the
    last successful submission, otherwise send one cancel-and-replace request
    to the matching engine and annotate each order with the engine's status.
    The state is `_orders`, the last list applied, shared by every pair. */
module LykkeExchange {
  import opened Common
  import opened Domain
  import opened FixedPoint

  /** The traded pair as `ApplyAsync` sees it: its id and the number of
      decimals prices and volumes are rounded to. */
  datatype AssetPair = AssetPair(id: string, accuracy: nat, invertedAccuracy: nat)

  datatype CancelMode = NotEmptySide | BothSides | SellSide | BuySide

  /** `MultiOrderItemModel`; the action is the order's side. */
  datatype OrderItem = OrderItem(id: string, action: TradeType, price: int, volume: int)

  /** `MultiLimitOrderModel`. */
  datatype MultiLimitOrder = MultiLimitOrder(
    id: string,
    clientId: string,
    assetPairId: string,
    cancelPreviousOrders: bool,
    orders: seq<OrderItem>,
    cancelMode: CancelMode)

  /** One per-item status of the engine's response; `error` is the status
      code already mapped to the order error it stands for. */
  datatype OrderStatus = OrderStatus(id: string, error: OrderError, statusReason: string)

  /** What the matching-engine client does with a request. */
  datatype Reply = Statuses(statuses: seq<OrderStatus>) | NullReply | Thrown

  datatype ApplyError =
    | WalletIdNotSet        // no wallet configured: nothing is sent
    | AccuracyOutOfRange    // `Math.Round` rejects more than 28 decimals
    | EngineError           // the client threw; rethrown
    | NullResponse          // "ME response is null"
    | OrderIdNotSingle      // `Single` found zero or several orders with the id

  datatype Outcome = Skipped | Placed | Failed(error: ApplyError)

  /** The new `_orders`, the caller's orders after annotation (they are the
      same objects in the source), the request sent if any, and the outcome. */
  datatype Applied = Applied(
    last: Option<seq<LimitOrder>>,
    orders: seq<LimitOrder>,
    request: Option<MultiLimitOrder>,
    outcome: Outcome)

  predicate AccuracyOk(pair: AssetPair) {
    pair.accuracy <= Scale && pair.invertedAccuracy <= Scale
  }

  /** One request item per order, in order, with a fresh id, the order's
      side, its price rounded to the pair's accuracy and its unsigned volume
      rounded to the pair's volume accuracy. */
  function BuildItems(orders: seq<LimitOrder>, pair: AssetPair, freshIds: nat -> string): (items: seq<OrderItem>)
    requires |orders| == 0 || AccuracyOk(pair)
    ensures |items| == |orders|
    ensures forall i :: 0 <= i < |items| ==>
              && items[i].id == freshIds(i)
              && items[i].action == orders[i].tradeType
              && items[i].price == Round(orders[i].price, pair.accuracy)
              && items[i].volume == Round(Abs(orders[i].volume), pair.invertedAccuracy)
              && items[i].volume >= 0
  {
    seq(|orders|, i requires 0 <= i < |orders| =>
      OrderItem(freshIds(i), orders[i].tradeType,
                Round(orders[i].price, pair.accuracy),
                Round(Abs(orders[i].volume), pair.invertedAccuracy)))
  }

  function ItemIds(items: seq<OrderItem>): (ids: seq<string>)
    ensures |ids| == |items| && forall i :: 0 <= i < |items| ==> ids[i] == items[i].id
  {
    seq(|items|, i requires 0 <= i < |items| => items[i].id)
  }

  function OrderIds(orders: seq<LimitOrder>): (ids: seq<string>)
    ensures |ids| == |orders| && forall i :: 0 <= i < |orders| ==> ids[i] == orders[i].id
  {
    seq(|orders|, i requires 0 <= i < |orders| => orders[i].id)
  }

  /** `map[item.Id] = order.Id`, filled in item order (a later write wins):
      its keys are the item ids and it only ever names ids of the orders. */
  function IdMap(items: seq<OrderItem>, orders: seq<LimitOrder>): (m: map<string, string>)
    requires |items| == |orders|
    ensures forall x :: x in m <==> x in ItemIds(items)
    ensures forall x :: x in m.Values ==> x in OrderIds(orders)
  {
    if |items| == 0 then map[]
    else
      var n := |items| - 1;
      assert ItemIds(items) == ItemIds(items[..n]) + [items[n].id];
      assert OrderIds(orders) == OrderIds(orders[..n]) + [orders[n].id];
      IdMap(items[..n], orders[..n])[items[n].id := orders[n].id]
  }

  /** The message stored with a status: a known error keeps the engine's
      reason as it is; an unknown one falls back to "Unknown error" when the
      engine gave no reason. */
  function ErrorMessage(s: OrderStatus): (msg: string)
    ensures s.error != Unknown ==> msg == s.statusReason
    ensures s.error == Unknown ==> msg != ""
    ensures s.error == Unknown && s.statusReason == "" ==> msg == "Unknown error"
    ensures s.statusReason != "" ==> msg == s.statusReason
  {
    if s.error != Unknown then s.statusReason
    else if s.statusReason != "" then s.statusReason
    else "Unknown error"
  }

  /** How many orders carry the id. */
  function CountId(orders: seq<LimitOrder>, id: string): nat {
    if |orders| == 0 then 0
    else (if orders[0].id == id then 1 else 0) + CountId(orders[1..], id)
  }

  /** Writes the error annotation onto every order with the id. */
  function Mark(orders: seq<LimitOrder>, id: string, error: OrderError, msg: string): (r: seq<LimitOrder>)
    ensures SequenceEqual(r, orders) && SameIds(r, orders)
  {
    seq(|orders|, i requires 0 <= i < |orders| =>
      if orders[i].id == id then orders[i].(error := error, errorMessage := msg) else orders[i])
  }

  /** The caller's orders after the annotation loop, and whether it finished. */
  datatype Annotation = Annotation(orders: seq<LimitOrder>, ok: bool)

  /** The loop over `response.Statuses`: a status whose id is not in the map
      is ignored; otherwise the one order with the mapped id is annotated,
      and `Single` throws when there is not exactly one. */
  function Annotate(orders: seq<LimitOrder>, idMap: map<string, string>, statuses: seq<OrderStatus>): (a: Annotation)
    ensures SequenceEqual(a.orders, orders) && SameIds(a.orders, orders)
    decreases |statuses|
  {
    if |statuses| == 0 then Annotation(orders, true)
    else
      var s := statuses[0];
      if s.id !in idMap then Annotate(orders, idMap, statuses[1..])
      else if CountId(orders, idMap[s.id]) != 1 then Annotation(orders, false)
      else Annotate(Mark(orders, idMap[s.id], s.error, ErrorMessage(s)), idMap, statuses[1..])
  }

  /** `ApplyAsync(assetPair, limitOrders)` against the last applied list
      `last`. The wallet id ("" for null or empty), the fresh GUIDs and the
      matching-engine client are parameters. */
  function ApplyAsync(
    last: Option<seq<LimitOrder>>,
    pair: AssetPair,
    limitOrders: seq<LimitOrder>,
    walletId: string,
    requestId: string,
    freshIds: nat -> string,
    engine: MultiLimitOrder -> Reply): (r: Applied)
    ensures r.outcome.Skipped? <==> last.Some? && SequenceEqual(limitOrders, last.value)
    ensures !r.outcome.Placed? ==> r.last == last
    ensures r.outcome.Placed? ==> r.last == Some(r.orders)
    ensures SequenceEqual(r.orders, limitOrders) && SameIds(r.orders, limitOrders)
    ensures r.request.None? <==>
              r.outcome in {Skipped, Failed(WalletIdNotSet), Failed(AccuracyOutOfRange)}
    ensures walletId == "" ==> r.request.None?
    ensures r.request.Some? ==>
              && (engine(r.request.value).Thrown? ==> r.outcome == Failed(EngineError))
              && (engine(r.request.value).NullReply? ==> r.outcome == Failed(NullResponse))
              && (r.outcome.Placed? ==> engine(r.request.value).Statuses?)
    ensures r.outcome.Placed? ==> r.request.Some?
    ensures r.request.Some? ==>
              && (|limitOrders| == 0 || AccuracyOk(pair))
              && r.request.value.orders == BuildItems(limitOrders, pair, freshIds)
    ensures r.request.Some? && engine(r.request.value).Statuses? ==>
              var a := Annotate(limitOrders, IdMap(r.request.value.orders, limitOrders),
                                engine(r.request.value).statuses);
              && r.orders == a.orders
              && (r.outcome.Placed? <==> a.ok)
    ensures r.request.Some? ==>
              var q := r.request.value;
              && q.clientId == walletId && q.assetPairId == pair.id
              && q.cancelPreviousOrders && q.cancelMode == BothSides
              && |q.orders| == |limitOrders|
              && (forall i :: 0 <= i < |q.orders| ==>
                    q.orders[i].action == limitOrders[i].tradeType && q.orders[i].volume >= 0)
  {
    if last.Some? && SequenceEqual(limitOrders, last.value) then
      Applied(last, limitOrders, None, Skipped)
    else if walletId == "" then
      Applied(last, limitOrders, None, Failed(WalletIdNotSet))
    else if |limitOrders| > 0 && !AccuracyOk(pair) then
      Applied(last, limitOrders, None, Failed(AccuracyOutOfRange))
    else
      var items := BuildItems(limitOrders, pair, freshIds);
      var request := MultiLimitOrder(requestId, walletId, pair.id, true, items, BothSides);
      match engine(request)
      case Thrown => Applied(last, limitOrders, Some(request), Failed(EngineError))
      case NullReply => Applied(last, limitOrders, Some(request), Failed(NullResponse))
      case Statuses(statuses) =>
        var a := Annotate(limitOrders, IdMap(items, limitOrders), statuses);
        if a.ok then Applied(Some(a.orders), a.orders, Some(request), Placed)
        else Applied(last, a.orders, Some(request), Failed(OrderIdNotSingle))
  }

  /** `SequenceEqual` is an equivalence. */
  lemma SequenceEqualChain(a: seq<LimitOrder>, b: seq<LimitOrder>, c: seq<LimitOrder>)
    requires SequenceEqual(a, b) && SequenceEqual(c, b)
    ensures SequenceEqual(a, c)
  {
  }

  /** Two consecutive calls with equal lists submit once: after a successful
      call the next call with a list equal under the comparer is skipped,
      sends nothing and keeps `_orders`. The pairs, wallets, ids and engines
      of the two calls are unrelated, since `_orders` is one shared field. */
  lemma SubmitOnce(
    last: Option<seq<LimitOrder>>, p1: AssetPair, p2: AssetPair,
    l1: seq<LimitOrder>, l2: seq<LimitOrder>, w1: string, w2: string, q1: string, q2: string,
    ids1: nat -> string, ids2: nat -> string,
    e1: MultiLimitOrder -> Reply, e2: MultiLimitOrder -> Reply)
    requires ApplyAsync(last, p1, l1, w1, q1, ids1, e1).outcome.Placed?
    requires SequenceEqual(l2, l1)
    ensures var r1 := ApplyAsync(last, p1, l1, w1, q1, ids1, e1);
            var r2 := ApplyAsync(r1.last, p2, l2, w2, q2, ids2, e2);
            r2.outcome == Skipped && r2.request.None? && r2.last == r1.last && r2.orders == l2
  {
    var r1 := ApplyAsync(last, p1, l1, w1, q1, ids1, e1);
    SequenceEqualChain(l2, l1, r1.orders);
  }

  /** Whether a call is skipped depends only on the orders and `_orders`:
      not on the pair, the wallet, the ids or the engine. */
  lemma SkipIgnoresPair(
    last: Option<seq<LimitOrder>>, p1: AssetPair, p2: AssetPair, l: seq<LimitOrder>,
    w1: string, w2: string, q1: string, q2: string,
    ids1: nat -> string, ids2: nat -> string,
    e1: MultiLimitOrder -> Reply, e2: MultiLimitOrder -> Reply)
    ensures ApplyAsync(last, p1, l, w1, q1, ids1, e1).outcome.Skipped?
            == ApplyAsync(last, p2, l, w2, q2, ids2, e2).outcome.Skipped?
  {
  }

  /** With distinct fresh item ids the map sends each item's id to its own
      order's id. */
  lemma {:induction false} IdMapFaithful(items: seq<OrderItem>, orders: seq<LimitOrder>)
    requires |items| == |orders| && Distinct(ItemIds(items))
    ensures forall i :: 0 <= i < |items| ==> IdMap(items, orders)[items[i].id] == orders[i].id
  {
    if |items| > 0 {
      var n := |items| - 1;
      var m := IdMap(items[..n], orders[..n]);
      assert ItemIds(items[..n]) == ItemIds(items)[..n];
      IdMapFaithful(items[..n], orders[..n]);
      forall i | 0 <= i < n ensures items[i].id != items[n].id {
        assert ItemIds(items)[i] == items[i].id && ItemIds(items)[n] == items[n].id;
      }
      forall i | 0 <= i < |items| ensures IdMap(items, orders)[items[i].id] == orders[i].id {
        if i < n {
          assert items[..n][i] == items[i] && orders[..n][i] == orders[i];
        }
      }
    }
  }

  /** With distinct item ids and distinct order ids the map is injective:
      no two items are traced back to the same order. */
  lemma IdMapInjective(items: seq<OrderItem>, orders: seq<LimitOrder>)
    requires |items| == |orders| && Distinct(ItemIds(items)) && Distinct(OrderIds(orders))
    ensures forall x, y :: x in IdMap(items, orders) && y in IdMap(items, orders) && x != y ==>
              IdMap(items, orders)[x] != IdMap(items, orders)[y]
  {
    var m := IdMap(items, orders);
    IdMapFaithful(items, orders);
    forall x, y | x in m && y in m && x != y ensures m[x] != m[y] {
      var i :| 0 <= i < |items| && ItemIds(items)[i] == x;
      var j :| 0 <= j < |items| && ItemIds(items)[j] == y;
      assert OrderIds(orders)[i] == m[x] && OrderIds(orders)[j] == m[y];
    }
  }

  /** With distinct order ids every order id occurs exactly once. */
  lemma {:induction false} CountDistinct(orders: seq<LimitOrder>, id: string)
    requires Distinct(OrderIds(orders)) && id in OrderIds(orders)
    ensures CountId(orders, id) == 1
  {
    assert OrderIds(orders[1..]) == OrderIds(orders)[1..];
    if orders[0].id == id {
      CountAbsent(orders[1..], id);
    } else {
      CountDistinct(orders[1..], id);
    }
  }

  lemma {:induction false} CountAbsent(orders: seq<LimitOrder>, id: string)
    requires id !in OrderIds(orders)
    ensures CountId(orders, id) == 0
  {
    if |orders| > 0 {
      assert OrderIds(orders[1..]) == OrderIds(orders)[1..];
      assert OrderIds(orders)[0] == orders[0].id;
      CountAbsent(orders[1..], id);
    }
  }

  /** One status: with an unmapped id nothing changes; with a mapped id only
      the order carrying that id is annotated, with the status's error and
      message; a duplicated id makes `Single` throw. */
  lemma OneStatus(orders: seq<LimitOrder>, idMap: map<string, string>, s: OrderStatus)
    ensures s.id !in idMap ==> Annotate(orders, idMap, [s]) == Annotation(orders, true)
    ensures s.id in idMap && CountId(orders, idMap[s.id]) != 1 ==> !Annotate(orders, idMap, [s]).ok
    ensures s.id in idMap && CountId(orders, idMap[s.id]) == 1 ==>
              var a := Annotate(orders, idMap, [s]);
              && a.ok
              && forall j :: 0 <= j < |orders| ==>
                   a.orders[j] == if orders[j].id == idMap[s.id]
                                  then orders[j].(error := s.error, errorMessage := ErrorMessage(s))
                                  else orders[j]
  {
    assert [s][1..] == [];
  }

  /** With distinct order ids the annotation loop never throws. */
  lemma {:induction false} DistinctIdsAnnotate(orders: seq<LimitOrder>, idMap: map<string, string>, statuses: seq<OrderStatus>)
    requires Distinct(OrderIds(orders))
    requires forall x :: x in idMap.Values ==> x in OrderIds(orders)
    ensures Annotate(orders, idMap, statuses).ok
    decreases |statuses|
  {
    if |statuses| > 0 {
      var s := statuses[0];
      if s.id in idMap {
        assert idMap[s.id] in idMap.Values;
        CountDistinct(orders, idMap[s.id]);
        var marked := Mark(orders, idMap[s.id], s.error, ErrorMessage(s));
        assert OrderIds(marked) == OrderIds(orders);
        DistinctIdsAnnotate(marked, idMap, statuses[1..]);
      } else {
        DistinctIdsAnnotate(orders, idMap, statuses[1..]);
      }
    }
  }

  /** When the orders have distinct ids, a changed list, a wallet, valid
      accuracies and an engine that answers together mean the orders are
      placed and become the new `_orders`. */
  lemma DistinctIdsPlace(
    last: Option<seq<LimitOrder>>, pair: AssetPair, l: seq<LimitOrder>, w: string, q: string,
    ids: nat -> string, engine: MultiLimitOrder -> Reply)
    requires Distinct(OrderIds(l)) && w != "" && AccuracyOk(pair)
    requires !(last.Some? && SequenceEqual(l, last.value))
    requires engine(MultiLimitOrder(q, w, pair.id, true, BuildItems(l, pair, ids), BothSides)).Statuses?
    ensures ApplyAsync(last, pair, l, w, q, ids, engine).outcome == Placed
    ensures ApplyAsync(last, pair, l, w, q, ids, engine).last.Some?
  {
    var items := BuildItems(l, pair, ids);
    var request := MultiLimitOrder(q, w, pair.id, true, items, BothSides);
    DistinctIdsAnnotate(l, IdMap(items, l), engine(request).statuses);
  }
}

=== FILE: pair_table.dfy ===
/** `_ordersByAssetPairs`: a dictionary keyed by asset-pair id, kept as its
    entries in enumeration order. The dictionary's real enumeration order is
    unspecified; here it is insertion order. */
module PairTable {
  import opened Common

  type PairId = string

  datatype Entry<V> = Entry(key: PairId, value: V)

  /** Keys are unique: the representation invariant of a dictionary. */
  predicate Wf<V>(t: seq<Entry<V>>) {
    forall i, j :: 0 <= i < j < |t| ==> t[i].key != t[j].key
  }

  function Keys<V>(t: seq<Entry<V>>): set<PairId> {
    set i | 0 <= i < |t| :: t[i].key
  }

  lemma KeysCons<V>(e: Entry<V>, t: seq<Entry<V>>)
    ensures Keys([e] + t) == {e.key} + Keys(t)
  {
    var r := [e] + t;
    forall x | x in Keys(r) ensures x in {e.key} + Keys(t) {
      var i :| 0 <= i < |r| && r[i].key == x;
      if i > 0 { assert t[i - 1].key == x; }
    }
    forall x | x in Keys(t) ensures x in Keys(r) {
      var i :| 0 <= i < |t| && t[i].key == x;
      assert r[i + 1].key == x;
    }
    assert r[0].key == e.key;
  }

  lemma WfCons<V>(e: Entry<V>, t: seq<Entry<V>>)
    ensures Wf([e] + t) <==> Wf(t) && e.key !in Keys(t)
  {
    var r := [e] + t;
    if Wf(r) {
      forall i, j | 0 <= i < j < |t| ensures t[i].key != t[j].key {
        assert r[i + 1] == t[i] && r[j + 1] == t[j];
      }
      assert r[0] == e;
      forall i | 0 <= i < |t| ensures t[i].key != e.key {
        assert r[i + 1] == t[i];
      }
    }
    if Wf(t) && e.key !in Keys(t) {
      forall i, j | 0 <= i < j < |r| ensures r[i].key != r[j].key {
        if i == 0 {
          assert r[j].key == t[j - 1].key;
        } else {
          assert r[i] == t[i - 1] && r[j] == t[j - 1];
        }
      }
    }
  }

  /** `TryGetValue`. */
  function Find<V>(t: seq<Entry<V>>, k: PairId): (r: Option<V>)
    ensures r.Some? <==> k in Keys(t)
    ensures Wf(t) ==> forall i :: 0 <= i < |t| && t[i].key == k ==> r == Some(t[i].value)
  {
    if |t| == 0 then None
    else if t[0].key == k then Some(t[0].value)
    else
      assert t == [t[0]] + t[1..];
      KeysCons(t[0], t[1..]);
      Find(t[1..], k)
  }

  lemma FindCons<V>(e: Entry<V>, t: seq<Entry<V>>, k: PairId)
    ensures Find([e] + t, k) == if e.key == k then Some(e.value) else Find(t, k)
  {
    assert ([e] + t)[1..] == t;
  }

  /** The indexer `t[k] = v`: replaces the value in place when `k` is present,
      otherwise appends a new entry. */
  function Put<V>(t: seq<Entry<V>>, k: PairId, v: V): (r: seq<Entry<V>>)
    requires Wf(t)
    ensures Wf(r)
    ensures Keys(r) == Keys(t) + {k}
    ensures Find(r, k) == Some(v)
    ensures forall k' :: k' != k ==> Find(r, k') == Find(t, k')
    ensures |t| <= |r| && forall i :: 0 <= i < |t| ==> r[i].key == t[i].key
  {
    if |t| == 0 then
      KeysCons(Entry(k, v), []);
      assert [Entry(k, v)] + [] == [Entry(k, v)];
      [Entry(k, v)]
    else
      assert t == [t[0]] + t[1..];
      KeysCons(t[0], t[1..]);
      if t[0].key == k then
        var r := [Entry(k, v)] + t[1..];
        KeysCons(Entry(k, v), t[1..]);
        WfCons(Entry(k, v), t[1..]);
        WfCons(t[0], t[1..]);
        forall k' ensures Find(r, k') == (if k' == k then Some(v) else Find(t, k')) {
          FindCons(Entry(k, v), t[1..], k');
          FindCons(t[0], t[1..], k');
        }
        r
      else
        var rest := Put(t[1..], k, v);
        KeysCons(t[0], rest);
        WfCons(t[0], rest);
        WfCons(t[0], t[1..]);
        var r := [t[0]] + rest;
        forall k' ensures Find(r, k') == (if k' == k then Some(v) else Find(t, k')) {
          FindCons(t[0], rest, k');
          FindCons(t[0], t[1..], k');
        }
        r
  }
}
